=== FILE: README.md ===
# Email categorisation lambdas, modelled in Dafny

The system classifies inbound customer emails with a foundation model. A
Lambda handler receives S3 notifications for stored emails. It reads its
settings from a DynamoDB table: the model id, the temperature, the
instructions, and the category → SNS topic list. It collects the emails into
batches of at most ten and sends each batch to Amazon Bedrock. Then, for
each result the model returns, it builds a complaint record, publishes it to
the SNS topic of its category (or to the `unknown` topic) and logs it to a
DynamoDB activity table. A companion function composes the acknowledgement
email sent back to the customer.

The model has one Dafny module per Python file, plus a module for the Python
values they handle:

- `PyValue` (`python_value.dfy`): Python values (`None`, bool, int, str, list,
  and dict as an insertion-ordered entry list). It also defines the built-ins
  the lambdas use: `d[k]`, `d.get`, `d[k] = v`, truthiness, iteration,
  `int()`, `str()` and Python `==`. Exceptions are a `Result` that either
  holds a value or names the exception that escapes.
- `Config` (`get_config.dfy`): `get_config` and `convert_dynamodb_item`.
- `ActivityLog` (`log_activity.dfy`): `log_activity`. Its entry loop is an
  imperative method proved against the item function.
- `Invoker` (`invoke_bedrock.dfy`): `invoke_bedrock`. It covers request
  construction for both model families, the per-attempt response handling,
  and the retry loop with exponential backoff. The loop is a method proved
  equal to the recursive `RetryLoop`.
- `Router` (`sns_actions.dfy`): `publish_to_sns`. Its two search loops are
  methods proved equal to `FindTopic`, and the whole call is proved equal to
  `Route`.
- `Reply` (`send_email.dfy`): `send_email`.
- `Handler` (`index.dfy`): `lambda_handler`. The record loop, the flush and
  the loop over the results are methods proved equal to the recursive
  functions `Process`, `Flush` and `Dispatch`. Lemmas about those functions
  state what the handler does: its batching schedule, what it publishes and
  logs, and how it aborts.

Every external service is a parameter: the DynamoDB `get_item` response, the
S3 fetch together with `get_email_content`, the Bedrock client, `json.loads`,
`put_item`, the SES response and the clock. The model's observable behaviour
is the sequence of events it causes: invoke_bedrock calls (each making up to
three model requests), publications, logged items and the error metric.

## Model

| member | source | states |
|---|---|---|
| PyValue.Get | lib/lambdas/python/index.py:80-81 | `v.get(k, default)` raises exactly when `v` is not a dict; otherwise it gives the value stored under `k`, or the default when `k` is absent |
| PyValue.PutKeys | lib/lambdas/python/log_activity.py:15-21 | `item[key] = value` keeps an existing key in place and appends a new key last |
| PyValue.PutLookup | lib/lambdas/python/log_activity.py:15-21 | after `item[key] = value`, the key reads back the new value and every other key is unchanged |
| PyValue.PutUnique | lib/lambdas/python/log_activity.py:15-21 | assignment never creates a duplicate key |
| PyValue.DecimalRoundTrip | lib/lambdas/python/log_activity.py:20-21 | `int(str(n)) == n` for every integer: the numeral the logger writes is one the config reader parses back |
| PyValue.PyEqReflexive | lib/lambdas/python/index.py:69 | every value with distinct dict keys equals itself under Python `==`, so the last record always closes its batch |
| Config.KeyIndex | lib/lambdas/python/get_config.py:38-45 | a present key has a first position, and `item[k]` reads the entry there |
| Config.ConvertItem | lib/lambdas/python/get_config.py:36-46 | a value with none of the tags S, N, L, M is returned unchanged; a dict with an `S` key yields that string whatever other tags it has; a conversion raises only for a tagged dict without `S` |
| Config.ConvertTagged | lib/lambdas/python/get_config.py:36-46 | for a dict without `S`, the tags are tried in the order N, L, M. `N` gives `int()` of its value or int()'s exception. `L` converts each element of a list (raising iff some element does), iterates a dict or string unchanged, and raises TypeError on anything else. `M` converts each value of a dict (raising iff some value does) and raises AttributeError on a non-dict |
| Config.ConvertList | lib/lambdas/python/get_config.py:42-43 | the `L` comprehension succeeds iff every element converts; the result then has the same length and element j is element j converted |
| Config.ConvertEntries | lib/lambdas/python/get_config.py:44-45 | the `M` comprehension succeeds iff every value converts; the result then keeps the keys in order and each value is the converted original |
| Config.GetConfig | lib/lambdas/python/get_config.py:11-34 | a ClientError or a missing item gives None; any other get_item failure escapes; otherwise the result is a dict with the item's attribute names in order and each value unwrapped, and it raises iff some attribute fails to convert |
| Config.RejectedNumeralRaises | lib/lambdas/python/get_config.py:40-41 | every `N` numeral that `int()` rejects makes the conversion raise ValueError |
| Config.FractionalNumberRaises | lib/lambdas/python/get_config.py:40-41 | `int()` rejects the fractional numeral "1.5", so `{'N': '1.5'}` raises ValueError |
| ActivityLog.ItemKeys | lib/lambdas/python/log_activity.py:11-21 | the item's keys are `message_id`, then the complaint's scalar-valued keys in complaint order, with no key twice |
| ActivityLog.ItemLookups | lib/lambdas/python/log_activity.py:11-21 | every key of the item holds the typed encoding of the complaint's value (S for str, BOOL for bool, N for int); a scalar complaint entry named `message_id` overrides the id; lists, dicts and None are skipped |
| ActivityLog.ItemContents | lib/lambdas/python/log_activity.py:11-21 | the key order and contents of the item, together |
| ActivityLog.LogActivity | lib/lambdas/python/log_activity.py:9-32 | the loop builds exactly `ItemOf(messageId, complaint)`; a put ClientError gives None, any other put failure escapes |
| ActivityLog.NumberThenConvert | lib/lambdas/python/log_activity.py:20-21 | an integer logged as `{'N': str(i)}` is read back by the config unwrapper as `i` |
| ActivityLog.EncodeThenConvert | lib/lambdas/python/log_activity.py:16-21 | strings and integers written by the logger are recovered exactly by `convert_dynamodb_item`; a bool comes back still wrapped as `{'BOOL': b}` |
| Invoker.RequestShape | lib/lambdas/python/invoke_bedrock.py:10-45 | the Amazon shape is used iff the id starts with `amazon.`. The temperature is forwarded unchanged. Max tokens are 1024 for ids containing `nova-micro` and 2048 otherwise. There is one user message. Amazon gets the prompt as the user text and the instructions as the system text, with `messages-v1` and topP 0.8. Anthropic gets the instructions then the prompt as typed text blocks, with `bedrock-2023-05-31` |
| Invoker.DeployedRequest | lib/genai-email-categorizer.ts:467-469 | the deployed settings (Nova Micro, temperature 1) select the Amazon shape with 1024 tokens |
| Invoker.OutputNormalisation | lib/lambdas/python/invoke_bedrock.py:54-78 | for any Amazon and Anthropic responses carrying the same output text: JSON text is normalised alike by both families: a list is the result list, anything else becomes a one-element list. Non-JSON text gives Amazon the one `unknown`/`non-urgent` placeholder carrying the text, and makes Anthropic retry |
| Invoker.AmazonTextOutcome | lib/lambdas/python/invoke_bedrock.py:54-65 | for any Amazon response whose output path holds text t: t that is not JSON gives the one `unknown`/`non-urgent` placeholder carrying t; JSON t gives its value normalised to a list |
| Invoker.AmazonMissingOutputEscapes | lib/lambdas/python/invoke_bedrock.py:56-78 | for any Amazon response where reading `['output']['message']['content'][0]['text']` raises, the attempt escapes: the KeyError, IndexError or TypeError is not among the caught kinds |
| Invoker.AnthropicNonDictEscapes | lib/lambdas/python/invoke_bedrock.py:68-78 | an Anthropic response that is not a dict has no `.get`, so the attempt escapes |
| Invoker.AnthropicEmptyContentRetried | lib/lambdas/python/invoke_bedrock.py:68-76 | an Anthropic dict response whose `content` is missing or falsy is a retried ValueError |
| Invoker.AnthropicEmptyTextRetried | lib/lambdas/python/invoke_bedrock.py:69-76 | an Anthropic response whose first content block is a dict with a missing or falsy `text` is a retried ValueError |
| Invoker.AnthropicTextOutcome | lib/lambdas/python/invoke_bedrock.py:69-78 | an Anthropic response whose first content block carries non-empty text t: t that is not JSON is a retried JSONDecodeError; JSON t gives its value normalised to a list |
| Invoker.RetryDelays | lib/lambdas/python/invoke_bedrock.py:49-81 | from any attempt on, the model is called at least once and at most up to the bound (never when no attempt is left, and then the result is None); one delay, of backoff^(k+1), is slept after each failed attempt but the last |
| Invoker.RetriedBefore | lib/lambdas/python/invoke_bedrock.py:49-82 | every attempt before the last one made failed in a caught way (a ClientError, a ValueError or a JSONDecodeError) |
| Invoker.LastAttemptDecides | lib/lambdas/python/invoke_bedrock.py:49-87 | the last attempt made decides the outcome: its results, its escaping exception, the error dict `{statusCode: 500}` when it was the last allowed one, or an escaping exception when the delay before the next would be negative |
| Invoker.RetryContract | lib/lambdas/python/invoke_bedrock.py:49-87 | the model is called at most `retries` times, and not at all (result None) when `retries <= 0`. One sleep of backoff^1, backoff^2, … follows each failed attempt but the last. The last attempt yields its results, its escaping exception, or the `{statusCode: 500}` error dict once attempts run out |
| Invoker.AlwaysFailing | lib/lambdas/python/invoke_bedrock.py:78-87 | a model that always fails in a caught way uses every attempt and yields the error dict with the last failure; the defaults sleep 2 then 4 seconds |
| Invoker.EscapeOnFirstAttempt | lib/lambdas/python/invoke_bedrock.py:49-78 | an exception outside the caught kinds ends the call after one attempt with no sleep |
| Invoker.Attempts | lib/lambdas/python/invoke_bedrock.py:49-87 | the imperative attempt loop yields the same outcome, delays and call count as `RetryLoop` |
| Invoker.InvokeBedrock | lib/lambdas/python/invoke_bedrock.py:8-87 | `invoke_bedrock` is the retry loop on the request built for the model family |
| Router.FindTopicRaises | lib/lambdas/python/sns_actions.py:11-14 | a search raises only when some entry lacks a key |
| Router.MatchFromIsFirst | lib/lambdas/python/sns_actions.py:11-14 | the position found is the first entry whose category equals the wanted one, or the end when none does |
| Router.FindTopicOverTopics | lib/lambdas/python/sns_actions.py:11-14 | over well-formed entries the search yields the arn at the first match, or None |
| Router.FindTopicResult | lib/lambdas/python/sns_actions.py:11-21 | a search raises only on a malformed entry; over well-formed entries it yields None when nothing matches, or the arn of the first matching entry |
| Router.FirstArn | lib/lambdas/python/sns_actions.py:11-14 | the `break` makes the first matching entry win over later ones |
| Router.Route | lib/lambdas/python/sns_actions.py:6-34 | a publication goes to a truthy arn, with subject `Email Complaint Categorized: <category>` and the complaint as message |
| Router.RouteChoice | lib/lambdas/python/sns_actions.py:10-34 | over well-formed entries: the category's first entry is used if its arn is truthy, else the first `unknown` entry if its arn is truthy, else nothing is published; nothing raises |
| Router.RouteKnownCategory | lib/lambdas/python/sns_actions.py:11-34 | over any well-formed entries, a category whose first entry has a truthy arn is published to that arn with the category's subject |
| Router.RouteUnknownCategory | lib/lambdas/python/sns_actions.py:17-34 | over any well-formed entries, a category with no entry, or whose first entry has a falsy arn, is published to the first `unknown` entry's arn when that is truthy |
| Router.StackTopicsWellFormed | lib/genai-email-categorizer.ts:134-148 | the entries the stack writes, `{category, topicName, topicArn}` for each configured category, are well formed and keep each category and arn |
| Router.StackRouting | lib/genai-email-categorizer.ts:134-148 | over the stack's entries, for distinct category names, a complaint of configured category j goes to topic arn j with subject `Email Complaint Categorized: <category j>` |
| Router.NoTopicNoPublish | lib/lambdas/python/sns_actions.py:23-34 | with no entry for the category or for `unknown`, nothing is published and nothing raises |
| Router.FindTopicArn | lib/lambdas/python/sns_actions.py:11-21 | the imperative search loop equals `FindTopic` |
| Router.PublishToSns | lib/lambdas/python/sns_actions.py:6-34 | `publish_to_sns` equals `Route`; a failed publish is caught and dropped |
| Reply.BodyParts | lib/lambdas/python/send_email.py:17 | the body is the greeting, then exactly the incentive line, then the fixed closing |
| Reply.IncentiveChoice | lib/lambdas/python/send_email.py:8-15 | a category gets a non-empty incentive iff it is techsupport, content or billing, and the three lines differ |
| Reply.IncentiveRecoverable | lib/lambdas/python/send_email.py:8-17 | two bodies for the same addressee are equal only when the categories are the same known one, or both unknown |
| Reply.SendEmail | lib/lambdas/python/send_email.py:6-46 | the email goes from the sender to the one recipient with the fixed subject and UTF-8. Its body is the greeting, the category's incentive and the closing, whatever the outcome. It returns (MessageId, incentive) iff the service accepts, and None iff it answers with a ClientError |
| Handler.Setup | lib/lambdas/python/index.py:37-41 | the settings are read before the try block, and they exist iff the configuration was read, is present, converts, and carries a temperature that `int()` accepts. The temperature is that integer, a missing topic list is `[]` and a missing model id is None |
| Handler.LastSegment | lib/lambdas/python/index.py:58 | the message id is the suffix of the key after its last `/` (the whole key when there is none), and contains no `/` |
| Handler.ComplaintFields | lib/lambdas/python/index.py:78-92 | complaint i carries message id i of the batch and the result's category, urgency and summary, defaulting to `unknown`, `non-urgent` and "". It also carries the sender and content of the most recently read email, whichever email the result is about. Its seven keys are distinct |
| Handler.HandleResult | lib/lambdas/python/index.py:78-99 | the loop goes on iff the result has a message id, is a dict, routing does not raise and the put does not fail with other than a ClientError; a result past the ids stops it without events |
| Handler.DispatchCompletes | lib/lambdas/python/index.py:78-103 | the results loop completes whenever every remaining result is one `HandleResult` goes on for |
| Handler.FewerResultsComplete | lib/lambdas/python/index.py:78-103 | over well-formed topic entries, dict results no more numerous than the message ids, with puts that only succeed or fail with a ClientError, always let the results loop complete |
| Handler.Dispatch | lib/lambdas/python/index.py:78-103 | a completed results loop clears the batch and the ids and keeps the latest sender and content; it completes only when there are no more results than ids |
| Handler.Flush | lib/lambdas/python/index.py:69-103 | a completed flush leaves an empty batch and counts one more flush |
| Handler.LoggedItem | lib/lambdas/python/index.py:84-99 | the item logged for result i holds message id i and the batch's most recent sender and content |
| Handler.HandleResultEvents | lib/lambdas/python/index.py:78-99 | each result publishes at most once, always just before logging, and logs at most the item for its message id; when the loop goes on, exactly that item was logged |
| Handler.DispatchEvents | lib/lambdas/python/index.py:78-103 | the results loop keeps the earlier events, and adds publications each directly followed by a logged item. Logged item k carries message id k. When the loop completes, exactly one item per result is logged |
| Handler.DispatchItems | lib/lambdas/python/index.py:78-99 | logged item k of the results loop is the activity item of the complaint for result i + k: its message id, category, urgency, sender, timestamp, content and summary, and that result is a dict with a message id |
| Handler.ExtraResultsAbort | lib/lambdas/python/index.py:78-79 | more results than message ids always abort the loop |
| Handler.ErrorDictAborts | lib/lambdas/python/index.py:75-80 | when the model keeps failing, iterating the returned error dict aborts right after the invoke_bedrock call, with nothing published or logged |
| Handler.FlushInvocations | lib/lambdas/python/index.py:69-75 | a completed flush adds exactly one invoke_bedrock call, on the pending batch |
| Handler.BatchSchedule | lib/lambdas/python/index.py:44-75 | a completed run over n records, where only the last equals the last, calls invoke_bedrock ⌈n/10⌉ times. The batches hold the records in input order, each record once: batches of ten, then the remaining 1 to 10 |
| Handler.AbsentConfig | lib/lambdas/python/index.py:37 | without a configuration item (a ClientError, no item, or a get_item failure that escapes `get_config`) the handler raises before its try block: no invoke_bedrock call and no error metric |
| Handler.UnreadableRecordAborts | lib/lambdas/python/index.py:48-58 | a record whose bucket name or object key cannot be read, whose key is not a string, or whose email cannot be fetched and parsed aborts the record loop at once, with no new event |
| Handler.RejectedTemperature | lib/lambdas/python/index.py:37-39 | a configuration whose `llmTemperature` is missing or rejected by `int()` makes the handler raise before its try block: no invoke_bedrock call and no error metric |
| Handler.FlushExtends | lib/lambdas/python/index.py:69-103 | a flush, completed or aborted, only appends to the events: its invoke_bedrock call, then publications and logged items |
| Handler.ProcessExtends | lib/lambdas/python/index.py:47-103 | the record loop never takes an event back: the events at any point are a prefix of those it ends with, and it adds no error metric |
| Handler.HandleTrace | lib/lambdas/python/index.py:33-107 | once the settings are read, the handler returns iff the event's records can be read and the record loop completes, with the loop's events. Otherwise its events are those caused before the exception, then the error metric once, last, and the exception escapes |
| Handler.ProcessResult | lib/lambdas/python/index.py:78-99 | one turn of the results loop equals `HandleResult` |
| Handler.DispatchResults | lib/lambdas/python/index.py:78-103 | the imperative results loop equals `Dispatch` |
| Handler.FlushBatch | lib/lambdas/python/index.py:69-103 | the flush block equals `Flush` |
| Handler.ProcessRecord | lib/lambdas/python/index.py:48-103 | one turn of the record loop is one step of `Process` |
| Handler.ProcessRecords | lib/lambdas/python/index.py:47-103 | the imperative record loop equals `Process` from the initial state |
| Handler.LambdaHandler | lib/lambdas/python/index.py:33-107 | `lambda_handler` equals `Handle`. A setup failure escapes with no events. Any exception inside the try block ends the events with the error metric, which appears nowhere else, and is re-raised |

## Left out

- Floating point: a float temperature, a float `N` attribute and float results are not in the value model. The temperature is an integer, as `int()` makes it in the handler. The Amazon `topP` of 0.8 is an opaque real constant.
- JSON text: `json.dumps` and `json.loads` are not modelled as text. `json.loads` is a parameter (`parse`). The request body, the batch prompt, the publish message and the error body are carried as the values they serialise. `get_config`'s JSON output is taken as the dict it encodes.
- UTF-8 decoding of the S3 object and the Bedrock response body is left out. Both are folded into the `mail` and `client` parameters.
- `get_email_content` (MIME parsing) is a parameter, since `get_content.py` is not part of this model. The S3 fetch is folded into the same parameter: record j gives an email, or None when the fetch or parse raises.
- `time.sleep` is not modelled as a pause. The model records the delays it would sleep for. A negative delay, which `time.sleep` rejects, is an escaping exception.
- The clock (`datetime.now`) is a parameter, one ISO timestamp per result.
- `log_error_metric` is modelled as the `ErrorMetric` event only. As written, it calls `datetime.UTC()`, which raises AttributeError, so the metric call itself would raise before the original exception is re-raised. The model keeps the order "metric, then failure" and does not distinguish which exception escapes.
- `print` output is left out everywhere.
- Lambda runtime retries, concurrency and the CDK/Node files are out of scope. The only uses of the stack definition are the deployed settings in `DeployedRequest` and the topic entries in `StackTopics`.
- `int()` accepts only ASCII digits here, and strips only ASCII whitespace (space, tab, newline, carriage return, vertical tab, form feed). Python also accepts other Unicode decimal digits and strips other Unicode whitespace, such as `\x1c` in `int("5\x1c")`.
- Router.StackRouting: stated for distinct category names. The stack creates one topic construct per name, so a repeated name is not a deployable configuration.
- `PyValue.Repr` does not escape quotes or special characters inside strings.
- Where the documented design differs, the model follows the code:
  - Amazon output that is not JSON is never retried. It becomes the placeholder result.
  - The backoff before retry k+1 is `backoff ** (k + 1)`.
  - Every complaint of a batch carries the sender and content of the most recently read email.
  - A batch closes when a record equals the last record by value, so an earlier duplicate of the last record closes the batch early.
  - When the model keeps failing, the error dict is iterated as results and aborts the handler.
- Handler.BatchSchedule: it is stated only for runs in which no earlier record equals the last one, because a duplicate closes a batch early (see above).
- Router.Route: the JSON text of the message sent to SNS is not modelled. The publication carries the complaint value.

=== FILE: get_config.dfy ===
/** The configuration reader: one DynamoDB get_item on the settings table,
    whose typed attribute values are unwrapped into plain values. */
module Config {
  import opened PyValue

  /** The four type tags the unwrapper recognises, in the order it tests them. */
  predicate IsTagged(item: Value)
  {
    item.Dict? && exists t :: t in ["S", "N", "L", "M"] && t in Keys(item.entries)
  }

  /** Position of the first entry with key k. */
  function KeyIndex<V>(entries: seq<(string, V)>, k: string): (i: nat)
    requires k in Keys(entries)
    ensures i < |entries| && entries[i].0 == k
    ensures Lookup(entries, k) == Some(entries[i].1)
  {
    assert Keys(entries)[0] == entries[0].0;
    if entries[0].0 == k then 0
    else
      assert Keys(entries) == [entries[0].0] + Keys(entries[1..]);
      KeyIndex(entries[1..], k) + 1
  }

  /** convert_dynamodb_item: a dict tagged 'S' gives its string, 'N' the
      integer its numeral denotes, 'L' its elements converted one by one,
      'M' its entries with converted values; the tags are checked in that
      order, and anything else comes back unchanged. */
  function ConvertItem(item: Value): (r: Result<Value>)
    decreases item, 1
    ensures !IsTagged(item) ==> r == Ok(item)
    ensures item.Dict? && "S" in Keys(item.entries) ==> r == Ok(Lookup(item.entries, "S").value)
    ensures r.Raise? ==> IsTagged(item) && "S" !in Keys(item.entries)
  {
    match item
    case Dict(es) =>
      if "S" in Keys(es) then
        Ok(es[KeyIndex(es, "S")].1)
      else if "N" in Keys(es) then
        (match IntOf(es[KeyIndex(es, "N")].1)
         case Ok(n) => Ok(Int(n))
         case Raise(e) => Raise(e))
      else if "L" in Keys(es) then
        var l := es[KeyIndex(es, "L")].1;
        (match l
         case List(xs) =>
           (match ConvertList(l, 0)
            case Ok(ys) => Ok(List(ys))
            case Raise(e) => Raise(e))
         case Dict(_) => Ok(List(Iterate(l).value))
         case Str(_) => Ok(List(Iterate(l).value))
         case _ => Raise(TypeError))
      else if "M" in Keys(es) then
        var m := es[KeyIndex(es, "M")].1;
        if m.Dict? then
          match ConvertEntries(m, 0)
          case Ok(ces) => Ok(Dict(ces))
          case Raise(e) => Raise(e)
        else Raise(AttributeError)
      else
        assert !IsTagged(item);
        Ok(item)
    case _ => Ok(item)
  }

  /** [convert_dynamodb_item(i) for i in l[from:]] for a list l: the first
      element that fails makes the whole comprehension fail. */
  function ConvertList(l: Value, from: nat): (r: Result<seq<Value>>)
    requires l.List? && from <= |l.items|
    decreases l, 0, |l.items| - from
    ensures r.Ok? <==> forall j :: from <= j < |l.items| ==> ConvertItem(l.items[j]).Ok?
    ensures r.Ok? ==>
      && |r.value| == |l.items| - from
      && forall j :: from <= j < |l.items| ==> ConvertItem(l.items[j]) == Ok(r.value[j - from])
  {
    if from == |l.items| then Ok([])
    else
      match ConvertItem(l.items[from])
      case Raise(e) => Raise(e)
      case Ok(y) =>
        match ConvertList(l, from + 1)
        case Raise(e) => Raise(e)
        case Ok(ys) => Ok([y] + ys)
  }

  /** {k: convert_dynamodb_item(v) for k, v in m.items()} over the entries
      of the dict m from position from on. */
  function ConvertEntries(m: Value, from: nat): (r: Result<seq<(string, Value)>>)
    requires m.Dict? && from <= |m.entries|
    decreases m, 0, |m.entries| - from
    ensures r.Ok? <==> forall j :: from <= j < |m.entries| ==> ConvertItem(m.entries[j].1).Ok?
    ensures r.Ok? ==>
      && Keys(r.value) == Keys(m.entries)[from..]
      && forall j :: from <= j < |m.entries| ==> ConvertItem(m.entries[j].1) == Ok(r.value[j - from].1)
  {
    if from == |m.entries| then Ok([])
    else
      match ConvertItem(m.entries[from].1)
      case Raise(e) => Raise(e)
      case Ok(y) =>
        match ConvertEntries(m, from + 1)
        case Raise(e) => Raise(e)
        case Ok(rest) =>
          KeysCons((m.entries[from].0, y), rest);
          assert Keys(m.entries)[from..] == [m.entries[from].0] + Keys(m.entries)[from + 1..];
          Ok([(m.entries[from].0, y)] + rest)
  }

  /** What get_item on the settings table yields. */
  datatype GetItemOutcome =
    | GetClientError(message: string)   // a ClientError, caught and reported
    | GetOtherError                     // any other exception, not caught
    | NoItem                            // the response holds no 'Item'
    | Item(attributes: seq<(string, Value)>)

  /** get_config: None after a ClientError or when no item is found;
      otherwise the item with each top-level attribute unwrapped. Any other
      get_item failure, and a conversion error, is not caught and escapes.
      (The JSON text the Python returns is taken as the dict it encodes.) */
  function GetConfig(read: GetItemOutcome): (r: Result<Option<Value>>)
    ensures read.GetClientError? || read.NoItem? ==> r == Ok(None)
    ensures read.GetOtherError? ==> r == Raise(BotoCoreError)
    ensures read.Item? ==>
      (r.Ok? <==> forall j :: 0 <= j < |read.attributes| ==> ConvertItem(read.attributes[j].1).Ok?)
    ensures read.Item? && r.Ok? ==>
      && r.value.Some? && r.value.value.Dict?
      && Keys(r.value.value.entries) == Keys(read.attributes)
      && forall j :: 0 <= j < |read.attributes| ==>
           ConvertItem(read.attributes[j].1) == Ok(r.value.value.entries[j].1)
  {
    match read
    case GetClientError(_) => Ok(None)
    case GetOtherError => Raise(BotoCoreError)
    case NoItem => Ok(None)
    case Item(attributes) =>
      match ConvertEntries(Dict(attributes), 0)
      case Ok(es) => Ok(Some(Dict(es)))
      case Raise(e) => Raise(e)
  }

  /** Without an 'S' tag the other tags are checked in the order N, L, M:
      'N' gives int() of its value (or int()'s exception); failing that, an
      'L' list gives its elements converted one by one, an 'L' dict or
      string its keys or characters, and anything else under 'L' a
      TypeError; failing that, an 'M' dict gives its entries with converted
      values, and anything else under 'M' an AttributeError. */
  lemma ConvertTagged(es: seq<(string, Value)>)
    requires "S" !in Keys(es)
    ensures var r := ConvertItem(Dict(es));
      && ("N" in Keys(es) ==>
            r == match IntOf(Lookup(es, "N").value) case Ok(n) => Ok(Int(n)) case Raise(e) => Raise(e))
      && ("N" !in Keys(es) && "L" in Keys(es) ==>
            var l := Lookup(es, "L").value;
            && (l.List? ==> (r.Ok? <==> ConvertList(l, 0).Ok?) && (r.Ok? ==> r.value == List(ConvertList(l, 0).value)))
            && (l.Dict? || l.Str? ==> r == Ok(List(Iterate(l).value)))
            && (!l.List? && !l.Dict? && !l.Str? ==> r == Raise(TypeError)))
      && ("N" !in Keys(es) && "L" !in Keys(es) && "M" in Keys(es) ==>
            var m := Lookup(es, "M").value;
            && (m.Dict? ==> (r.Ok? <==> ConvertEntries(m, 0).Ok?) && (r.Ok? ==> r.value == Dict(ConvertEntries(m, 0).value)))
            && (!m.Dict? ==> r == Raise(AttributeError)))
  {
  }

  /** Every numeral int() rejects makes the 'N' branch raise ValueError:
      int() is applied outside any try. */
  lemma RejectedNumeralRaises(n: string)
    requires ParseInt(n).None?
    ensures ConvertItem(Dict([("N", Str(n))])) == Raise(ValueError)
  {
    assert Keys([("N", Str(n))]) == ["N"];
  }

  /** A fractional numeral such as "1.5" is one int() rejects. */
  lemma FractionalNumberRaises()
    ensures ParseInt("1.5").None?
    ensures ConvertItem(Dict([("N", Str("1.5"))])) == Raise(ValueError)
  {
    var t := TrimEnd(TrimStart("1.5"));
    assert t == "1.5";
    assert !IsDigit(t[1]) && t[1] != '_';
    assert !ValidDigits(t);
    RejectedNumeralRaises("1.5");
  }
}

=== FILE: index.dfy ===
/** The batch orchestrator: reads the settings, walks the stored-email
    records, accumulates them into batches of at most ten, has the model
    categorise each batch, and publishes and logs one complaint per result. */
module Handler {
  import opened PyValue
  import Config
  import Invoker
  import Router
  import ActivityLog

  const BatchSize: nat := 10
  /** invoke_bedrock's default arguments. */
  const Retries: int := 3
  const Backoff: int := 2

  // ---------------------------------------------------------------------
  // The outside world
  // ---------------------------------------------------------------------

  /** What get_email_content extracts from a stored email: the text handed to
      the model, the From header and the Subject header. */
  datatype Email = Email(content: string, sender: Value, subject: Value)

  /** The services the handler talks to, as oracles:
      - config: the settings table's get_item response;
      - mail(j): the email fetched and parsed for record j, None when
        fetching, decoding or parsing it raises;
      - client(f, call): the model's answer to a call made during flush f;
      - parse: json.loads on a text;
      - put(f, i): put_item's outcome for result i of flush f;
      - clock(f, i): the ISO timestamp taken for result i of flush f. */
  datatype Env = Env(
    config: Config.GetItemOutcome,
    mail: nat -> Option<Email>,
    client: (nat, Invoker.Call) -> Invoker.CallOutcome,
    parse: string -> Invoker.Parsed,
    put: (nat, nat) -> ActivityLog.PutOutcome,
    clock: (nat, nat) -> string)

  /** What the handler does that others can observe, in order. */
  datatype Event =
    | Invoked(batch: seq<Value>)                    // invoke_bedrock on this batch
    | Published(publication: Router.Publication)    // sns.publish
    | Logged(item: ActivityLog.Item)                // put_item on the activity table
    | ErrorMetric                                   // log_error_metric('GenAIEmailCategorizer', 'LambdaErrors')

  /** The handler returns (None), or an exception escapes from it. */
  datatype Handled = Done(trace: seq<Event>) | Failed(trace: seq<Event>)

  // ---------------------------------------------------------------------
  // Settings (read before the try block)
  // ---------------------------------------------------------------------

  datatype Settings = Settings(modelId: Value, temperature: int, instructions: Value, topics: Value)

  /** json.loads(get_config()) and the four config.get calls, all before
      the try block. A get_item failure other than a ClientError escapes
      get_config; a missing configuration gives json.loads(None), which
      raises; so does a temperature that int() rejects, a missing one
      (int(None)) included. A missing topic list defaults to [], a missing
      model id to None. */
  function Setup(read: Config.GetItemOutcome): (r: Result<Settings>)
    ensures read.GetClientError? || read.NoItem? ==> r == Raise(TypeError)
    ensures read.GetOtherError? ==> r == Raise(BotoCoreError)
    ensures r.Ok? <==>
      && Config.GetConfig(read).Ok? && Config.GetConfig(read).value.Some?
      && IntOf(Get(Config.GetConfig(read).value.value, "llmTemperature", Null).value).Ok?
    ensures r.Ok? ==>
      var config := Config.GetConfig(read).value.value;
      && r.value.temperature == IntOf(Get(config, "llmTemperature", Null).value).value
      && "llmTemperature" in Keys(config.entries)
      && ("categoryTopics" !in Keys(config.entries) ==> r.value.topics == List([]))
      && ("bedrockModelID" !in Keys(config.entries) ==> r.value.modelId == Null)
  {
    match Config.GetConfig(read)
    case Raise(e) => Raise(e)
    case Ok(None) => Raise(TypeError)
    case Ok(Some(config)) =>
      match IntOf(Get(config, "llmTemperature", Null).value)
      case Raise(e) => Raise(e)
      case Ok(temperature) =>
        Ok(Settings(Get(config, "bedrockModelID", Null).value, temperature,
                    Get(config, "llmInstructions", Null).value,
                    Get(config, "categoryTopics", List([])).value))
  }

  // ---------------------------------------------------------------------
  // One record
  // ---------------------------------------------------------------------

  /** v[k0][k1]... */
  function Path(v: Value, keys: seq<string>): Result<Value>
  {
    if |keys| == 0 then Ok(v)
    else
      match Subscript(v, keys[0])
      case Raise(e) => Raise(e)
      case Ok(x) => Path(x, keys[1..])
  }

  /** file_key.split('/')[-1]: what follows the last '/', or the whole key. */
  function LastSegment(key: string): (id: string)
    ensures '/' !in id
    ensures |id| <= |key| && key[|key| - |id|..] == id
    ensures |id| < |key| ==> key[|key| - |id| - 1] == '/'
  {
    if |key| == 0 || key[|key| - 1] == '/' then ""
    else
      var prefix := LastSegment(key[..|key| - 1]);
      assert key[..|key| - 1][|key| - 1 - |prefix|..] == prefix;
      prefix + [key[|key| - 1]]
  }

  /** The message id and email of a record, or None when reading the bucket
      name or object key raises, the key is not a string, or fetching the
      object fails. */
  function Ingest(record: Value, mail: Option<Email>): Option<(string, Email)>
  {
    if Path(record, ["s3", "bucket", "name"]).Raise? then None
    else
      match Path(record, ["s3", "object", "key"])
      case Raise(_) => None
      case Ok(key) =>
        if !key.Str? || mail.None? then None
        else Some((LastSegment(key.s), mail.value))
  }

  /** The batch entry {"messageId", "email", "subject"} for one email. */
  function Entry(id: string, email: Email): Value
  {
    Dict([("messageId", Str(id)), ("email", Str(email.content)), ("subject", email.subject)])
  }

  // ---------------------------------------------------------------------
  // Flushing a batch
  // ---------------------------------------------------------------------

  /** The handler's variables between records: the pending batch and its
      message ids, the content and sender of the most recently extracted
      email, how many batches were flushed, and what happened so far. */
  datatype State = State(batch: seq<Value>, ids: seq<string>, content: string, sender: Value,
                         flushes: nat, trace: seq<Event>)

  datatype Progress = Running(state: State) | Aborted(trace: seq<Event>)

  const Initial: State := State([], [], "", Null, 0, [])

  /** The model client as seen during flush f. */
  function ClientFor(env: Env, f: nat): Invoker.Call -> Invoker.CallOutcome
  {
    c => env.client(f, c)
  }

  /** The value invoke_bedrock returns, which the handler then iterates: the
      error dict {statusCode, body} yields its two keys, None cannot be
      iterated. (The body's JSON text is not modelled.) */
  function Returned(result: Invoker.Invocation): Value
    requires !result.Raised?
  {
    match result
    case Results(items) => List(items)
    case ErrorResponse(code, _) => Dict([("statusCode", Int(code)), ("body", Str(""))])
    case NoneReturned => Null
  }

  /** The complaint built for result i, as the dict literal in the loop. */
  function Complaint(s: State, result: Value, timestamp: string, i: nat): (c: seq<(string, Value)>)
    requires result.Dict? && i < |s.ids|
    ensures Keys(c) == ["messageId", "category", "urgency", "email_address", "timestamp", "email_content", "summary"]
  {
    var c := [("messageId", Str(s.ids[i])),
              ("category", Get(result, "category", Str("unknown")).value),
              ("urgency", Get(result, "urgency", Str("non-urgent")).value),
              ("email_address", s.sender),
              ("timestamp", Str(timestamp)),
              ("email_content", Str(s.content)),
              ("summary", Get(result, "summary", Str("")).value)];
    assert Keys(c) == ["messageId", "category", "urgency", "email_address", "timestamp", "email_content", "summary"];
    c
  }

  /** Complaint i carries message id i of the batch; the result's category,
      urgency and summary, defaulting to "unknown", "non-urgent" and "";
      and the sender and content of the most recently extracted email,
      whichever email the result is about. Its seven keys are distinct. */
  lemma ComplaintFields(s: State, result: Value, timestamp: string, i: nat)
    requires result.Dict? && i < |s.ids|
    ensures var c := Complaint(s, result, timestamp, i);
      && UniqueKeys(c)
      && Lookup(c, "messageId") == Some(Str(s.ids[i]))
      && Lookup(c, "email_address") == Some(s.sender)
      && Lookup(c, "email_content") == Some(Str(s.content))
      && Lookup(c, "timestamp") == Some(Str(timestamp))
      && Lookup(c, "category") == Some(if "category" in Keys(result.entries)
                                        then Lookup(result.entries, "category").value else Str("unknown"))
      && Lookup(c, "urgency") == Some(if "urgency" in Keys(result.entries)
                                       then Lookup(result.entries, "urgency").value else Str("non-urgent"))
      && Lookup(c, "summary") == Some(if "summary" in Keys(result.entries)
                                       then Lookup(result.entries, "summary").value else Str(""))
  {
    var c := Complaint(s, result, timestamp, i);
    assert UniqueKeys(c);
    LookupUnique(c, 0);
    LookupUnique(c, 1);
    LookupUnique(c, 2);
    LookupUnique(c, 3);
    LookupUnique(c, 4);
    LookupUnique(c, 5);
    LookupUnique(c, 6);
  }

  /** How handling one result ends: the events it caused, and whether the
      loop goes on or an exception escapes. */
  datatype StepResult = Continue(events: seq<Event>) | Stop(events: seq<Event>)

  /** Result i is handled without an exception: it has a message id, it is
      a dict, routing its complaint does not raise, and put_item does not
      fail with anything but a ClientError. */
  predicate Handles(settings: Settings, env: Env, s: State, result: Value, i: nat)
  {
    && i < |s.ids| && result.Dict?
    && Router.Route(Dict(Complaint(s, result, env.clock(s.flushes, i), i)),
                    Get(result, "category", Str("unknown")).value, settings.topics).Ok?
    && env.put(s.flushes, i) != ActivityLog.PutOtherError
  }

  /** One turn of the loop over the results: the complaint for result i is
      published, then logged. A result without a matching message id
      (IndexError), a result that is not a dict (no .get), a raising topic
      lookup or a put_item failure other than a ClientError stops the loop;
      nothing else does. */
  function HandleResult(settings: Settings, env: Env, s: State, result: Value, i: nat): (r: StepResult)
    ensures r.Continue? ==> i < |s.ids| && result.Dict?
    ensures i >= |s.ids| ==> r == Stop([])
    ensures r.Continue? <==> Handles(settings, env, s, result, i)
  {
    if i >= |s.ids| || !result.Dict? then Stop([])
    else
      var complaint := Complaint(s, result, env.clock(s.flushes, i), i);
      var category := Get(result, "category", Str("unknown")).value;
      match Router.Route(Dict(complaint), category, settings.topics)
      case Raise(_) => Stop([])
      case Ok(publication) =>
        var events := (if publication.Some? then [Published(publication.value)] else [])
                      + [Logged(ActivityLog.ItemOf(s.ids[i], complaint))];
        if env.put(s.flushes, i) == ActivityLog.PutOtherError then Stop(events) else Continue(events)
  }

  /** The loop over the results from position i on; the events before an
      exception stay. At the end the batch is cleared. */
  function Dispatch(settings: Settings, env: Env, s: State, results: seq<Value>, i: nat): (p: Progress)
    requires i <= |results|
    decreases |results| - i
    ensures p.Running? ==>
      && p.state.batch == [] && p.state.ids == []
      && p.state.content == s.content && p.state.sender == s.sender
      && p.state.flushes == s.flushes + 1
    ensures p.Running? && i <= |s.ids| ==> |results| <= |s.ids|
  {
    if i == |results| then
      Running(s.(batch := [], ids := [], flushes := s.flushes + 1))
    else
      match HandleResult(settings, env, s, results[i], i)
      case Stop(events) => Aborted(s.trace + events)
      case Continue(events) => Dispatch(settings, env, s.(trace := s.trace + events), results, i + 1)
  }

  /** invoke_bedrock on the pending batch: up to Retries model requests. */
  function InvocationOf(settings: Settings, env: Env, s: State): Invoker.Run
    requires settings.modelId.Str?
  {
    var modelId := settings.modelId.s;
    Invoker.RetryLoop(modelId, Invoker.BuildRequest(modelId, settings.temperature, List(s.batch), settings.instructions),
                      Retries, Backoff, ClientFor(env, s.flushes), env.parse, 0)
  }

  /** Flushing the pending batch: a model id that is not a string makes
      invoke_bedrock raise before any call; otherwise the batch is sent and
      whatever comes back is iterated as results. */
  function Flush(settings: Settings, env: Env, s: State): (p: Progress)
    ensures p.Running? ==>
      && p.state.batch == [] && p.state.ids == []
      && p.state.content == s.content && p.state.sender == s.sender
      && p.state.flushes == s.flushes + 1
  {
    if !settings.modelId.Str? then Aborted(s.trace)
    else
      var run := InvocationOf(settings, env, s);
      var invoked := s.(trace := s.trace + [Invoked(s.batch)]);
      if run.result.Raised? then Aborted(invoked.trace)
      else
        match Iterate(Returned(run.result))
        case Raise(_) => Aborted(invoked.trace)
        case Ok(results) => Dispatch(settings, env, invoked, results, 0)
  }

  // ---------------------------------------------------------------------
  // The record loop and the handler
  // ---------------------------------------------------------------------

  /** Whether record j closes a batch that holds `pending` records before it:
      the batch reaches ten entries, or the record equals the last record. */
  predicate ClosesBatch(records: seq<Value>, j: nat, pending: nat)
    requires j < |records|
  {
    pending + 1 >= BatchSize || PyEq(records[j], records[|records| - 1])
  }

  /** The loop over the records from position j on. */
  function Process(settings: Settings, env: Env, records: seq<Value>, j: nat, s: State): Progress
    requires j <= |records|
    decreases |records| - j
  {
    if j == |records| then Running(s)
    else
      match Ingest(records[j], env.mail(j))
      case None => Aborted(s.trace)
      case Some(ingested) =>
        var (id, email) := ingested;
        var next := s.(batch := s.batch + [Entry(id, email)], ids := s.ids + [id],
                       content := email.content, sender := email.sender);
        if ClosesBatch(records, j, |s.batch|) then
          match Flush(settings, env, next)
          case Aborted(t) => Aborted(t)
          case Running(flushed) => Process(settings, env, records, j + 1, flushed)
        else Process(settings, env, records, j + 1, next)
  }

  /** The event records lambda_handler iterates, or the exception reading
      them raises. */
  function RecordsOf(event: Value): Result<seq<Value>>
  {
    match Subscript(event, "Records")
    case Raise(e) => Raise(e)
    case Ok(recs) => Iterate(recs)
  }

  /** lambda_handler(event, context). A record list that is not a list yields
      strings (a dict's keys, a string's characters), on which the first
      subscript raises, so the comparison with the last record is reached
      only when the records are a list. Any exception inside the try block
      reaches the error metric and is re-raised. */
  function Handle(event: Value, env: Env): Handled
  {
    match Setup(env.config)
    case Raise(_) => Failed([])
    case Ok(settings) =>
      var progress :=
        match RecordsOf(event)
        case Raise(_) => Aborted([])
        case Ok(records) => Process(settings, env, records, 0, Initial);
      match progress
      case Running(s) => Done(s.trace)
      case Aborted(t) => Failed(t + [ErrorMetric])
  }

  // ---------------------------------------------------------------------
  // Properties of a flush
  // ---------------------------------------------------------------------

  /** What a logged item says about the complaint it came from: its message
      id, and the sender and content it was given. */
  predicate ItemCarries(item: ActivityLog.Item, id: string, sender: Value, content: string)
  {
    && Lookup(item, "message_id") == Some(ActivityLog.S(id))
    && Lookup(item, "email_address") == ActivityLog.Encode(sender)
    && Lookup(item, "email_content") == Some(ActivityLog.S(content))
  }

  /** The items logged in a run of events, in order. */
  function LoggedItems(events: seq<Event>): seq<ActivityLog.Item>
  {
    if |events| == 0 then []
    else
      LoggedItems(events[..|events| - 1])
      + if events[|events| - 1].Logged? then [events[|events| - 1].item] else []
  }

  /** Events made only of publications and logged items, where every
      publication is immediately followed by a logged item. */
  predicate Paired(events: seq<Event>)
  {
    forall k :: 0 <= k < |events| ==>
      && (events[k].Published? || events[k].Logged?)
      && (events[k].Published? ==> k + 1 < |events| && events[k + 1].Logged?)
  }

  /** Logged item k carries message id k of `ids` and the given sender and
      content. */
  predicate CarriedBy(items: seq<ActivityLog.Item>, ids: seq<string>, sender: Value, content: string)
  {
    && |items| <= |ids|
    && forall k :: 0 <= k < |items| ==> ItemCarries(items[k], ids[k], sender, content)
  }

  /** The encoder keeps a complaint's message id, sender and content. */
  lemma ItemOfCarries(id: string, c: seq<(string, Value)>, sender: Value, content: string)
    requires UniqueKeys(c) && "message_id" !in Keys(c)
    requires Lookup(c, "email_address") == Some(sender) && Lookup(c, "email_content") == Some(Str(content))
    ensures ItemCarries(ActivityLog.ItemOf(id, c), id, sender, content)
  {
    ActivityLog.ItemContents(id, c);
    var item := ActivityLog.ItemOf(id, c);
    assert Lookup(item, "message_id") == ActivityLog.Expected(id, c, "message_id");
    assert Lookup(item, "email_address") == ActivityLog.Expected(id, c, "email_address");
    assert Lookup(item, "email_content") == ActivityLog.Expected(id, c, "email_content");
  }

  /** No complaint key is the item's own 'message_id' key. */
  lemma ComplaintKeysDistinct()
    ensures "message_id" !in ["messageId", "category", "urgency", "email_address", "timestamp", "email_content", "summary"]
  {
    var ks := ["messageId", "category", "urgency", "email_address", "timestamp", "email_content", "summary"];
    forall k | k in ks ensures |k| != 10 {}
  }

  /** The item logged for result i carries message id i of the batch and the
      batch's most recent sender and content. */
  lemma LoggedItem(s: State, result: Value, timestamp: string, i: nat)
    requires result.Dict? && i < |s.ids|
    ensures ItemCarries(ActivityLog.ItemOf(s.ids[i], Complaint(s, result, timestamp, i)), s.ids[i], s.sender, s.content)
  {
    ComplaintFields(s, result, timestamp, i);
    ComplaintKeysDistinct();
    ItemOfCarries(s.ids[i], Complaint(s, result, timestamp, i), s.sender, s.content);
  }

  /** Handling one result causes no event, the logged item alone, or a
      publication then the logged item. */
  lemma HandleResultShape(settings: Settings, env: Env, s: State, result: Value, i: nat)
    ensures var r := HandleResult(settings, env, s, result, i);
      && (r.Continue? ==> r.events != [])
      && (r.events == [] || (i < |s.ids| && result.Dict? &&
            var item := ActivityLog.ItemOf(s.ids[i], Complaint(s, result, env.clock(s.flushes, i), i));
            r.events == [Logged(item)] || (|r.events| == 2 && r.events[0].Published? && r.events[1] == Logged(item))))
  {
  }

  lemma OneLogged(events: seq<Event>, item: ActivityLog.Item)
    requires events == [Logged(item)] || (|events| == 2 && events[0].Published? && events[1] == Logged(item))
    ensures Paired(events) && LoggedItems(events) == [item]
  {
    var n := |events|;
    assert LoggedItems(events[..n - 1]) == [] by {
      if n == 2 {
        assert events[..1][..0] == [];
      }
    }
  }

  /** Handling one result publishes at most once, always immediately
      before logging, and logs at most the item for message id i; a result
      after which the loop goes on logged exactly that item. */
  lemma HandleResultEvents(settings: Settings, env: Env, s: State, result: Value, i: nat)
    ensures var r := HandleResult(settings, env, s, result, i);
      && Paired(r.events)
      && |LoggedItems(r.events)| <= 1
      && (r.Continue? ==> |LoggedItems(r.events)| == 1)
      && (|LoggedItems(r.events)| == 1 ==>
            i < |s.ids| && ItemCarries(LoggedItems(r.events)[0], s.ids[i], s.sender, s.content))
  {
    var r := HandleResult(settings, env, s, result, i);
    HandleResultShape(settings, env, s, result, i);
    if r.events != [] {
      var timestamp := env.clock(s.flushes, i);
      LoggedItem(s, result, timestamp, i);
      OneLogged(r.events, ActivityLog.ItemOf(s.ids[i], Complaint(s, result, timestamp, i)));
    }
  }

  lemma {:induction false} LoggedItemsAppend(a: seq<Event>, b: seq<Event>)
    ensures LoggedItems(a + b) == LoggedItems(a) + LoggedItems(b)
    decreases |b|
  {
    if |b| > 0 {
      assert (a + b)[..|a + b| - 1] == a + b[..|b| - 1];
      assert (a + b)[|a + b| - 1] == b[|b| - 1];
      LoggedItemsAppend(a, b[..|b| - 1]);
    } else {
      assert a + b == a;
    }
  }

  lemma PairedAppend(a: seq<Event>, b: seq<Event>)
    requires Paired(a) && Paired(b)
    ensures Paired(a + b)
  {
    forall k | 0 <= k < |a + b|
      ensures (a + b)[k].Published? || (a + b)[k].Logged?
      ensures (a + b)[k].Published? ==> k + 1 < |a + b| && (a + b)[k + 1].Logged?
    {
      if k < |a| {
        assert (a + b)[k] == a[k];
        if a[k].Published? {
          assert k + 1 < |a| && a[k + 1].Logged?;
          assert (a + b)[k + 1] == a[k + 1];
        }
      } else {
        assert (a + b)[k] == b[k - |a|];
        if b[k - |a|].Published? {
          assert (a + b)[k + 1] == b[k + 1 - |a|];
        }
      }
    }
  }

  /** The trace a run ends with, completed or aborted. */
  function TraceOf(p: Progress): seq<Event>
  {
    if p.Running? then p.state.trace else p.trace
  }

  /** A handled result that lets the loop go on hands the rest of the loop
      the extended trace. */
  lemma ContinueStep(settings: Settings, env: Env, s: State, results: seq<Value>, i: nat)
    requires i < |results|
    requires HandleResult(settings, env, s, results[i], i).Continue?
    ensures var events := HandleResult(settings, env, s, results[i], i).events;
      Dispatch(settings, env, s, results, i) == Dispatch(settings, env, s.(trace := s.trace + events), results, i + 1)
  {
  }

  /** A handled result that stops the loop ends the trace with its events. */
  lemma StopStep(settings: Settings, env: Env, s: State, results: seq<Value>, i: nat)
    requires i < |results|
    requires HandleResult(settings, env, s, results[i], i).Stop?
    ensures var events := HandleResult(settings, env, s, results[i], i).events;
      Dispatch(settings, env, s, results, i) == Aborted(s.trace + events)
  {
  }

  /** Prepending one handled result's events to those of the rest. */
  lemma ContinueEvents(pre: seq<Event>, events: seq<Event>, t: seq<Event>, ids: seq<string>,
                       sender: Value, content: string)
    requires Paired(events) && |LoggedItems(events)| == 1 && |ids| > 0
    requires ItemCarries(LoggedItems(events)[0], ids[0], sender, content)
    requires |pre + events| <= |t| && t[..|pre + events|] == pre + events
    requires Paired(t[|pre + events|..])
    requires CarriedBy(LoggedItems(t[|pre + events|..]), ids[1..], sender, content)
    ensures |pre| <= |t| && t[..|pre|] == pre
    ensures Paired(t[|pre|..])
    ensures CarriedBy(LoggedItems(t[|pre|..]), ids, sender, content)
    ensures |LoggedItems(t[|pre|..])| == 1 + |LoggedItems(t[|pre + events|..])|
  {
    var rest := t[|pre + events|..];
    assert t[..|pre|] == (pre + events)[..|pre|];
    assert t[|pre|..] == events + rest;
    PairedAppend(events, rest);
    LoggedItemsAppend(events, rest);
    var items := LoggedItems(t[|pre|..]);
    var later := LoggedItems(rest);
    assert items == LoggedItems(events) + later;
    forall k | 0 <= k < |items| ensures ItemCarries(items[k], ids[k], sender, content) {
      if k > 0 {
        assert items[k] == later[k - 1];
        assert ids[k] == ids[1..][k - 1];
      }
    }
  }

  /** The events of the handled result that stopped the loop end the trace. */
  lemma StopEvents(pre: seq<Event>, events: seq<Event>, t: seq<Event>, ids: seq<string>, i: nat,
                   sender: Value, content: string)
    requires t == pre + events && Paired(events) && |LoggedItems(events)| <= 1
    requires |LoggedItems(events)| == 1 ==> i < |ids| && ItemCarries(LoggedItems(events)[0], ids[i], sender, content)
    ensures |pre| <= |t| && t[..|pre|] == pre
    ensures Paired(t[|pre|..])
    ensures i <= |ids| ==> CarriedBy(LoggedItems(t[|pre|..]), ids[i..], sender, content)
  {
    assert t[|pre|..] == events;
    assert |LoggedItems(events)| == 1 ==> ids[i..][0] == ids[i];
  }

  /** The events the loop over the results adds to the trace: publications
      each immediately followed by a logged item, and logged item k carries
      the message id at position i + k and the sender and content of the
      batch's most recent email. When the loop completes, exactly one item
      per result is logged. */
  lemma {:induction false} DispatchEvents(settings: Settings, env: Env, s: State, results: seq<Value>, i: nat)
    requires i <= |results|
    decreases |results| - i
    ensures var t := TraceOf(Dispatch(settings, env, s, results, i));
      && |s.trace| <= |t| && t[..|s.trace|] == s.trace
      && Paired(t[|s.trace|..])
      && (i <= |s.ids| ==> CarriedBy(LoggedItems(t[|s.trace|..]), s.ids[i..], s.sender, s.content))
      && (Dispatch(settings, env, s, results, i).Running? ==> |LoggedItems(t[|s.trace|..])| == |results| - i)
  {
    var p := Dispatch(settings, env, s, results, i);
    var t := TraceOf(p);
    if i == |results| {
      assert t[|s.trace|..] == [];
    } else {
      var r := HandleResult(settings, env, s, results[i], i);
      HandleResultEvents(settings, env, s, results[i], i);
      if r.Stop? {
        StopStep(settings, env, s, results, i);
        StopEvents(s.trace, r.events, t, s.ids, i, s.sender, s.content);
      } else {
        var s' := s.(trace := s.trace + r.events);
        ContinueStep(settings, env, s, results, i);
        DispatchEvents(settings, env, s', results, i + 1);
        assert s.ids[i..][1..] == s.ids[i + 1..];
        ContinueEvents(s.trace, r.events, t, s.ids[i..], s.sender, s.content);
      }
    }
  }

  /** Logged item k is the activity item of the complaint built for result
      i + k: its message id, category, urgency, sender, timestamp, content
      and summary. */
  predicate ItemsFor(items: seq<ActivityLog.Item>, env: Env, s: State, results: seq<Value>, i: nat)
  {
    forall k :: 0 <= k < |items| ==> ItemFor(items[k], env, s, results, i + k)
  }

  /** `item` is the activity item of the complaint for result n. */
  predicate ItemFor(item: ActivityLog.Item, env: Env, s: State, results: seq<Value>, n: nat)
  {
    && n < |results| && n < |s.ids| && results[n].Dict?
    && item == ActivityLog.ItemOf(s.ids[n], Complaint(s, results[n], env.clock(s.flushes, n), n))
  }

  /** The item for result i, followed by those for the results after it. */
  lemma ItemsCons(item: ActivityLog.Item, later: seq<ActivityLog.Item>, env: Env, s: State, results: seq<Value>, i: nat)
    requires i < |results| && i < |s.ids| && results[i].Dict?
    requires item == ActivityLog.ItemOf(s.ids[i], Complaint(s, results[i], env.clock(s.flushes, i), i))
    requires ItemsFor(later, env, s, results, i + 1)
    ensures ItemsFor([item] + later, env, s, results, i)
  {
    var items := [item] + later;
    forall k | 0 <= k < |items| ensures ItemFor(items[k], env, s, results, i + k) {
      if k > 0 {
        assert items[k] == later[k - 1];
        assert ItemFor(later[k - 1], env, s, results, i + 1 + (k - 1));
        assert i + 1 + (k - 1) == i + k;
      }
    }
  }

  /** A result after which the loop goes on logged exactly its own item. */
  lemma ContinueItem(settings: Settings, env: Env, s: State, result: Value, i: nat)
    requires HandleResult(settings, env, s, result, i).Continue?
    ensures i < |s.ids| && result.Dict?
    ensures LoggedItems(HandleResult(settings, env, s, result, i).events) ==
      [ActivityLog.ItemOf(s.ids[i], Complaint(s, result, env.clock(s.flushes, i), i))]
  {
    HandleResultShape(settings, env, s, result, i);
    OneLogged(HandleResult(settings, env, s, result, i).events,
              ActivityLog.ItemOf(s.ids[i], Complaint(s, result, env.clock(s.flushes, i), i)));
  }

  /** A trace that extends `pre` by events logging the item of result i,
      then by items of the results after i. */
  lemma ItemsAfter(pre: seq<Event>, events: seq<Event>, t: seq<Event>, env: Env, s: State, results: seq<Value>, i: nat)
    requires i < |results| && i < |s.ids| && results[i].Dict?
    requires LoggedItems(events) == [ActivityLog.ItemOf(s.ids[i], Complaint(s, results[i], env.clock(s.flushes, i), i))]
    requires |pre + events| <= |t| && t[..|pre + events|] == pre + events
    requires ItemsFor(LoggedItems(t[|pre + events|..]), env, s, results, i + 1)
    ensures |pre| <= |t| && ItemsFor(LoggedItems(t[|pre|..]), env, s, results, i)
  {
    var rest := t[|pre + events|..];
    assert t[|pre|..] == events + rest;
    LoggedItemsAppend(events, rest);
    ItemsCons(LoggedItems(events)[0], LoggedItems(rest), env, s, results, i);
  }

  /** Which complaint an item belongs to does not depend on the events so
      far. */
  lemma ItemsForIgnoresTrace(items: seq<ActivityLog.Item>, env: Env, s: State, trace: seq<Event>,
                             results: seq<Value>, i: nat)
    requires ItemsFor(items, env, s.(trace := trace), results, i)
    ensures ItemsFor(items, env, s, results, i)
  {
    forall k | 0 <= k < |items| ensures ItemFor(items[k], env, s, results, i + k) {
      var n := i + k;
      assert ItemFor(items[k], env, s.(trace := trace), results, n);
      assert Complaint(s.(trace := trace), results[n], env.clock(s.flushes, n), n)
          == Complaint(s, results[n], env.clock(s.flushes, n), n);
    }
    assert ItemsFor(items, env, s, results, i);
  }

  /** Handling result i logs nothing, or the item of result i alone. */
  lemma LoggedOwnItem(settings: Settings, env: Env, s: State, results: seq<Value>, i: nat)
    requires i < |results|
    ensures ItemsFor(LoggedItems(HandleResult(settings, env, s, results[i], i).events), env, s, results, i)
  {
    var events := HandleResult(settings, env, s, results[i], i).events;
    HandleResultShape(settings, env, s, results[i], i);
    if events != [] {
      var item := ActivityLog.ItemOf(s.ids[i], Complaint(s, results[i], env.clock(s.flushes, i), i));
      OneLogged(events, item);
      ItemsCons(item, [], env, s, results, i);
      assert [item] + [] == [item];
    }
  }

  /** The items logged by a loop that stops at result i: at most the item
      for result i. */
  lemma ItemsStop(settings: Settings, env: Env, s: State, results: seq<Value>, i: nat)
    requires i < |results| && HandleResult(settings, env, s, results[i], i).Stop?
    ensures var t := TraceOf(Dispatch(settings, env, s, results, i));
      |s.trace| <= |t| && ItemsFor(LoggedItems(t[|s.trace|..]), env, s, results, i)
  {
    var t := TraceOf(Dispatch(settings, env, s, results, i));
    var events := HandleResult(settings, env, s, results[i], i).events;
    StopStep(settings, env, s, results, i);
    assert t[|s.trace|..] == events;
    LoggedOwnItem(settings, env, s, results, i);
  }

  /** The items logged by a loop that goes on after result i: the item for
      result i, then those the rest of the loop logs. */
  lemma ItemsContinue(settings: Settings, env: Env, s: State, results: seq<Value>, i: nat)
    requires i < |results| && HandleResult(settings, env, s, results[i], i).Continue?
    requires var s' := s.(trace := s.trace + HandleResult(settings, env, s, results[i], i).events);
      var t' := TraceOf(Dispatch(settings, env, s', results, i + 1));
      |s'.trace| <= |t'| && ItemsFor(LoggedItems(t'[|s'.trace|..]), env, s', results, i + 1)
    ensures var t := TraceOf(Dispatch(settings, env, s, results, i));
      |s.trace| <= |t| && ItemsFor(LoggedItems(t[|s.trace|..]), env, s, results, i)
  {
    var events := HandleResult(settings, env, s, results[i], i).events;
    var s' := s.(trace := s.trace + events);
    var t := TraceOf(Dispatch(settings, env, s', results, i + 1));
    ContinueStep(settings, env, s, results, i);
    DispatchEvents(settings, env, s', results, i + 1);
    ContinueItem(settings, env, s, results[i], i);
    ItemsForIgnoresTrace(LoggedItems(t[|s'.trace|..]), env, s, s'.trace, results, i + 1);
    ItemsAfter(s.trace, events, t, env, s, results, i);
  }

  /** The items the loop over the results logs are, in order, those of the
      complaints for results i, i + 1, ..., each a dict with a message id. */
  lemma {:induction false} DispatchItems(settings: Settings, env: Env, s: State, results: seq<Value>, i: nat)
    requires i <= |results|
    decreases |results| - i
    ensures var t := TraceOf(Dispatch(settings, env, s, results, i));
      |s.trace| <= |t| && ItemsFor(LoggedItems(t[|s.trace|..]), env, s, results, i)
  {
    if i == |results| {
      var t := TraceOf(Dispatch(settings, env, s, results, i));
      assert t[|s.trace|..] == [];
    } else if HandleResult(settings, env, s, results[i], i).Stop? {
      ItemsStop(settings, env, s, results, i);
    } else {
      var s' := s.(trace := s.trace + HandleResult(settings, env, s, results[i], i).events);
      DispatchItems(settings, env, s', results, i + 1);
      ItemsContinue(settings, env, s, results, i);
    }
  }

  /** Whether a result is handled does not depend on the events so far. */
  lemma HandlesIgnoresTrace(settings: Settings, env: Env, s: State, trace: seq<Event>, result: Value, i: nat)
    ensures Handles(settings, env, s.(trace := trace), result, i) == Handles(settings, env, s, result, i)
  {
    if i < |s.ids| && result.Dict? {
      var t := env.clock(s.flushes, i);
      assert Complaint(s.(trace := trace), result, t, i) == Complaint(s, result, t, i);
    }
  }

  /** A loop over no more results than message ids, each of which is
      handled without an exception, completes. */
  lemma {:induction false} DispatchCompletes(settings: Settings, env: Env, s: State, results: seq<Value>, i: nat)
    requires i <= |results| <= |s.ids|
    requires forall k :: i <= k < |results| ==> Handles(settings, env, s, results[k], k)
    decreases |results| - i
    ensures Dispatch(settings, env, s, results, i).Running?
  {
    if i < |results| {
      var events := HandleResult(settings, env, s, results[i], i).events;
      var s' := s.(trace := s.trace + events);
      ContinueStep(settings, env, s, results, i);
      forall k | i + 1 <= k < |results| ensures Handles(settings, env, s', results[k], k) {
        HandlesIgnoresTrace(settings, env, s, s.trace + events, results[k], k);
      }
      DispatchCompletes(settings, env, s', results, i + 1);
    }
  }

  /** With well-formed topic entries, a batch whose results are dicts, no
      more of them than message ids, and whose items are all stored or
      refused with a ClientError, is dispatched without an exception. */
  lemma FewerResultsComplete(settings: Settings, env: Env, s: State, results: seq<Value>, topics: seq<Value>)
    requires settings.topics == List(topics) && Router.AllTopics(topics)
    requires |results| <= |s.ids|
    requires forall k :: 0 <= k < |results| ==>
      results[k].Dict? && env.put(s.flushes, k) != ActivityLog.PutOtherError
    ensures Dispatch(settings, env, s, results, 0).Running?
  {
    forall k | 0 <= k < |results| ensures Handles(settings, env, s, results[k], k) {
      var complaint := Complaint(s, results[k], env.clock(s.flushes, k), k);
      Router.RouteChoice(Dict(complaint), Get(results[k], "category", Str("unknown")).value, topics);
    }
    DispatchCompletes(settings, env, s, results, 0);
  }

  /** More results than message ids always abort the loop. */
  lemma ExtraResultsAbort(settings: Settings, env: Env, s: State, results: seq<Value>)
    requires |results| > |s.ids|
    ensures Dispatch(settings, env, s, results, 0).Aborted?
  {
  }

  /** When the model keeps failing, invoke_bedrock's error dict is iterated as
      if it were the results: its first key is not a dict, so the flush
      aborts right after the invoke_bedrock call, with nothing published or logged. */
  lemma ErrorDictAborts(settings: Settings, env: Env, s: State)
    requires settings.modelId.Str? && |s.ids| > 0
    requires InvocationOf(settings, env, s).result.ErrorResponse?
    ensures Flush(settings, env, s) == Aborted(s.trace + [Invoked(s.batch)])
  {
    var returned := Returned(InvocationOf(settings, env, s).result);
    assert Iterate(returned).value[0] == Str("statusCode");
  }

  // ---------------------------------------------------------------------
  // Batching
  // ---------------------------------------------------------------------

  /** The batches of the invoke_bedrock calls in a trace, in order. */
  function Invocations(trace: seq<Event>): seq<seq<Value>>
  {
    if |trace| == 0 then []
    else
      Invocations(trace[..|trace| - 1])
      + if trace[|trace| - 1].Invoked? then [trace[|trace| - 1].batch] else []
  }

  function Flatten(batches: seq<seq<Value>>): seq<Value>
  {
    if |batches| == 0 then [] else Flatten(batches[..|batches| - 1]) + batches[|batches| - 1]
  }

  lemma {:induction false} InvocationsAppend(a: seq<Event>, b: seq<Event>)
    ensures Invocations(a + b) == Invocations(a) + Invocations(b)
    decreases |b|
  {
    if |b| > 0 {
      assert (a + b)[..|a + b| - 1] == a + b[..|b| - 1];
      assert (a + b)[|a + b| - 1] == b[|b| - 1];
      InvocationsAppend(a, b[..|b| - 1]);
    } else {
      assert a + b == a;
    }
  }

  lemma {:induction false} NoInvocations(events: seq<Event>)
    requires forall k :: 0 <= k < |events| ==> !events[k].Invoked?
    ensures Invocations(events) == []
    decreases |events|
  {
    if |events| > 0 {
      var pre := events[..|events| - 1];
      assert forall k :: 0 <= k < |pre| ==> pre[k] == events[k];
      NoInvocations(pre);
    }
  }

  /** A flush that completes called invoke_bedrock once and went through the
      results it returned. */
  lemma FlushDispatch(settings: Settings, env: Env, s: State) returns (results: seq<Value>)
    requires Flush(settings, env, s).Running?
    ensures Flush(settings, env, s) == Dispatch(settings, env, s.(trace := s.trace + [Invoked(s.batch)]), results, 0)
  {
    results := Iterate(Returned(InvocationOf(settings, env, s).result)).value;
  }

  /** A flush that completes adds exactly one invoke_bedrock call, on the pending
      batch. */
  lemma FlushInvocations(settings: Settings, env: Env, s: State)
    requires Flush(settings, env, s).Running?
    ensures Invocations(Flush(settings, env, s).state.trace) == Invocations(s.trace) + [s.batch]
  {
    var invoked := s.(trace := s.trace + [Invoked(s.batch)]);
    var results := FlushDispatch(settings, env, s);
    DispatchEvents(settings, env, invoked, results, 0);
    InvokedThenPaired(s.trace, s.batch, TraceOf(Dispatch(settings, env, invoked, results, 0)));
  }

  /** A trace that extends `pre` by one invoke_bedrock call and then only
      publications and logged items has that one call more. */
  lemma InvokedThenPaired(pre: seq<Event>, batch: seq<Value>, t: seq<Event>)
    requires |pre + [Invoked(batch)]| <= |t| && t[..|pre + [Invoked(batch)]|] == pre + [Invoked(batch)]
    requires Paired(t[|pre + [Invoked(batch)]|..])
    ensures Invocations(t) == Invocations(pre) + [batch]
  {
    var invoked := pre + [Invoked(batch)];
    var added := t[|invoked|..];
    NoInvocations(added);
    assert t == invoked + added;
    InvocationsAppend(invoked, added);
    InvocationsAppend(pre, [Invoked(batch)]);
    assert Invocations([Invoked(batch)]) == [batch] by {
      assert [Invoked(batch)][..0] == [];
    }
  }

  predicate AllIngest(records: seq<Value>, env: Env)
  {
    forall j :: 0 <= j < |records| ==> Ingest(records[j], env.mail(j)).Some?
  }

  /** The batch entries of all the records, in order. */
  function Entries(records: seq<Value>, env: Env): (es: seq<Value>)
    requires AllIngest(records, env)
    ensures |es| == |records|
  {
    seq(|records|, j requires 0 <= j < |records| && Ingest(records[j], env.mail(j)).Some? =>
      Entry(Ingest(records[j], env.mail(j)).value.0, Ingest(records[j], env.mail(j)).value.1))
  }

  /** No record before the last equals the last one. */
  predicate LastIsUnique(records: seq<Value>)
  {
    forall j :: 0 <= j < |records| - 1 ==> !PyEq(records[j], records[|records| - 1])
  }

  /** The batches sent so far and the pending batch after j entries of es:
      full batches of ten, in order, then the pending entries, fewer than
      ten. */
  predicate Scheduled(es: seq<Value>, j: nat, batch: seq<Value>, bs: seq<seq<Value>>)
  {
    && |batch| < BatchSize && |batch| <= j <= |es|
    && batch == es[j - |batch|..j]
    && (j - |batch|) % 10 == 0
    && Flatten(bs) == es[..j - |batch|]
    && |bs| == (j - |batch|) / 10
    && (forall k :: 0 <= k < |bs| ==> |bs[k]| == 10)
  }

  /** All of es sent, in ceil(|es|/10) batches: tens, then the 1 to 10 left. */
  predicate Complete(es: seq<Value>, bs: seq<seq<Value>>)
  {
    && Flatten(bs) == es
    && |bs| == (|es| + 9) / 10
    && (forall k :: 0 <= k < |bs| - 1 ==> |bs[k]| == 10)
    && (|bs| > 0 ==> |bs[|bs| - 1]| == |es| - 10 * (|bs| - 1))
  }

  lemma FlattenAppend(bs: seq<seq<Value>>, b: seq<Value>)
    ensures Flatten(bs + [b]) == Flatten(bs) + b
  {
    assert (bs + [b])[..|bs|] == bs;
  }

  /** An entry joins a pending batch that stays below ten. */
  lemma ScheduleExtend(es: seq<Value>, j: nat, batch: seq<Value>, bs: seq<seq<Value>>)
    requires Scheduled(es, j, batch, bs) && j < |es| && |batch| + 1 < BatchSize
    ensures Scheduled(es, j + 1, batch + [es[j]], bs)
  {
    assert es[j - |batch|..j + 1] == es[j - |batch|..j] + [es[j]];
  }

  /** The tenth entry closes the pending batch, which is sent. */
  lemma ScheduleFlush(es: seq<Value>, j: nat, batch: seq<Value>, bs: seq<seq<Value>>)
    requires Scheduled(es, j, batch, bs) && j < |es| && |batch| + 1 == BatchSize
    ensures Scheduled(es, j + 1, [], bs + [batch + [es[j]]])
  {
    var b := batch + [es[j]];
    assert b == es[j - |batch|..j + 1];
    FlattenAppend(bs, b);
    assert es[..j - |batch|] + es[j - |batch|..j + 1] == es[..j + 1];
  }

  /** The last entry closes the pending batch, whatever its size. */
  lemma ScheduleLast(es: seq<Value>, j: nat, batch: seq<Value>, bs: seq<seq<Value>>)
    requires Scheduled(es, j, batch, bs) && j + 1 == |es|
    ensures Complete(es, bs + [batch + [es[j]]])
  {
    var b := batch + [es[j]];
    assert b == es[j - |batch|..j + 1];
    FlattenAppend(bs, b);
    assert es[..j - |batch|] + es[j - |batch|..j + 1] == es;
  }

  /** Nothing pending at the end: all is sent. */
  lemma ScheduleEnd(es: seq<Value>, bs: seq<seq<Value>>)
    requires Scheduled(es, |es|, [], bs)
    ensures Complete(es, bs)
  {
    assert es[..|es|] == es;
  }

  /** Record j's batch entry. */
  lemma EntryAt(records: seq<Value>, env: Env, j: nat, id: string, email: Email)
    requires AllIngest(records, env) && j < |records| && Ingest(records[j], env.mail(j)) == Some((id, email))
    ensures Entries(records, env)[j] == Entry(id, email)
  {
  }

  /** A record that closes the batch: the loop goes on after a flush that
      added one invoke_bedrock call, on the pending batch with the record's entry. */
  lemma FlushStep(settings: Settings, env: Env, records: seq<Value>, j: nat, s: State, id: string, email: Email)
    returns (flushed: State)
    requires j < |records| && Ingest(records[j], env.mail(j)) == Some((id, email))
    requires ClosesBatch(records, j, |s.batch|) && Process(settings, env, records, j, s).Running?
    ensures Process(settings, env, records, j, s) == Process(settings, env, records, j + 1, flushed)
    ensures flushed.batch == []
    ensures Invocations(flushed.trace) == Invocations(s.trace) + [s.batch + [Entry(id, email)]]
  {
    ProcessStep(settings, env, records, j, s, id, email);
    var next := State(s.batch + [Entry(id, email)], s.ids + [id], email.content, email.sender, s.flushes, s.trace);
    var f := Flush(settings, env, next);
    assert f.Running?;
    flushed := f.state;
    FlushInvocations(settings, env, next);
  }

  /** The last record equals itself, so it closes the batch, whose flush
      completes the schedule. */
  lemma LastRecord(settings: Settings, env: Env, records: seq<Value>, j: nat, s: State)
    requires j + 1 == |records| && AllIngest(records, env) && WellFormed(records[|records| - 1])
    requires Process(settings, env, records, j, s).Running?
    requires Scheduled(Entries(records, env), j, s.batch, Invocations(s.trace))
    ensures Complete(Entries(records, env), Invocations(Process(settings, env, records, j, s).state.trace))
  {
    var (id, email) := Ingest(records[j], env.mail(j)).value;
    EntryAt(records, env, j, id, email);
    PyEqReflexive(records[j]);
    var flushed := FlushStep(settings, env, records, j, s, id, email);
    assert Process(settings, env, records, j + 1, flushed) == Running(flushed);
    ScheduleLast(Entries(records, env), j, s.batch, Invocations(s.trace));
  }

  /** A record before the last joins the pending batch, which is flushed
      when it reaches ten entries. */
  lemma Advance(settings: Settings, env: Env, records: seq<Value>, j: nat, s: State) returns (s': State)
    requires AllIngest(records, env) && LastIsUnique(records)
    requires j + 1 < |records| && Process(settings, env, records, j, s).Running?
    requires Scheduled(Entries(records, env), j, s.batch, Invocations(s.trace))
    ensures Process(settings, env, records, j, s) == Process(settings, env, records, j + 1, s')
    ensures Scheduled(Entries(records, env), j + 1, s'.batch, Invocations(s'.trace))
  {
    var es := Entries(records, env);
    var (id, email) := Ingest(records[j], env.mail(j)).value;
    EntryAt(records, env, j, id, email);
    if |s.batch| + 1 == BatchSize {
      s' := FlushStep(settings, env, records, j, s, id, email);
      ScheduleFlush(es, j, s.batch, Invocations(s.trace));
    } else {
      assert !ClosesBatch(records, j, |s.batch|);
      ProcessStep(settings, env, records, j, s, id, email);
      s' := State(s.batch + [Entry(id, email)], s.ids + [id], email.content, email.sender, s.flushes, s.trace);
      ScheduleExtend(es, j, s.batch, Invocations(s.trace));
    }
  }

  lemma {:induction false} ScheduleFrom(settings: Settings, env: Env, records: seq<Value>, j: nat, s: State)
    requires AllIngest(records, env) && LastIsUnique(records)
    requires |records| > 0 ==> WellFormed(records[|records| - 1])
    requires j <= |records| && Process(settings, env, records, j, s).Running?
    requires Scheduled(Entries(records, env), j, s.batch, Invocations(s.trace))
    requires j == |records| ==> s.batch == []
    decreases |records| - j
    ensures Complete(Entries(records, env), Invocations(Process(settings, env, records, j, s).state.trace))
  {
    var es := Entries(records, env);
    var p := Process(settings, env, records, j, s);
    if j == |records| {
      assert p == Running(s);
      ScheduleEnd(es, Invocations(s.trace));
      assert Complete(es, Invocations(p.state.trace));
    } else if j + 1 == |records| {
      LastRecord(settings, env, records, j, s);
      assert Complete(es, Invocations(p.state.trace));
    } else {
      var s' := Advance(settings, env, records, j, s);
      ScheduleFrom(settings, env, records, j + 1, s');
      assert Complete(es, Invocations(p.state.trace));
    }
  }

  /** With records of which only the last equals the last, a run that
      completes calls invoke_bedrock ceil(n/10) times: on the records in input
      order, each in exactly one batch, in batches of ten followed by one
      of the remaining 1 to 10. */
  lemma BatchSchedule(settings: Settings, env: Env, records: seq<Value>)
    requires AllIngest(records, env) && LastIsUnique(records)
    requires |records| > 0 ==> WellFormed(records[|records| - 1])
    requires Process(settings, env, records, 0, Initial).Running?
    ensures Complete(Entries(records, env), Invocations(Process(settings, env, records, 0, Initial).state.trace))
  {
    ScheduleStart(Entries(records, env));
    ScheduleFrom(settings, env, records, 0, Initial);
  }

  lemma ScheduleStart(es: seq<Value>)
    ensures Scheduled(es, 0, Initial.batch, Invocations(Initial.trace))
  {
    assert es[0..0] == [] && es[..0] == [];
  }

  // ---------------------------------------------------------------------
  // The handler's trace
  // ---------------------------------------------------------------------

  /** t is `pre` followed by events of the try block only: invoke_bedrock calls,
      publications and logged items, never the error metric. */
  predicate Extends(t: seq<Event>, pre: seq<Event>)
  {
    && |pre| <= |t| && t[..|pre|] == pre
    && forall k :: |pre| <= k < |t| ==> !t[k].ErrorMetric?
  }

  lemma ExtendsTrans(a: seq<Event>, b: seq<Event>, c: seq<Event>)
    requires Extends(b, a) && Extends(c, b)
    ensures Extends(c, a)
  {
    assert c[..|a|] == c[..|b|][..|a|];
  }

  /** Publications and logged items never include the error metric. */
  lemma PairedExtends(t: seq<Event>, pre: seq<Event>)
    requires |pre| <= |t| && t[..|pre|] == pre && Paired(t[|pre|..])
    ensures Extends(t, pre)
  {
    forall k | |pre| <= k < |t| ensures !t[k].ErrorMetric? {
      assert t[k] == t[|pre|..][k - |pre|];
    }
  }

  /** How a flush ends: before the invoke_bedrock call, right after it, or with
      the loop over the results it returned. */
  lemma FlushCases(settings: Settings, env: Env, s: State) returns (dispatched: bool, results: seq<Value>)
    ensures dispatched ==> Flush(settings, env, s) == Dispatch(settings, env, s.(trace := s.trace + [Invoked(s.batch)]), results, 0)
    ensures !dispatched ==> Flush(settings, env, s) == Aborted(s.trace) || Flush(settings, env, s) == Aborted(s.trace + [Invoked(s.batch)])
  {
    dispatched := false;
    results := [];
    if settings.modelId.Str? {
      var run := InvocationOf(settings, env, s);
      if !run.result.Raised? && Iterate(Returned(run.result)).Ok? {
        dispatched := true;
        results := Iterate(Returned(run.result)).value;
      }
    }
  }

  /** A flush, completed or aborted, only adds events to the trace: the
      invoke_bedrock call, then publications and logged items. */
  lemma FlushExtends(settings: Settings, env: Env, s: State)
    ensures Extends(TraceOf(Flush(settings, env, s)), s.trace)
  {
    var t := TraceOf(Flush(settings, env, s));
    var invoked := s.(trace := s.trace + [Invoked(s.batch)]);
    var dispatched, results := FlushCases(settings, env, s);
    assert Extends(invoked.trace, s.trace);
    if dispatched {
      DispatchEvents(settings, env, invoked, results, 0);
      PairedExtends(t, invoked.trace);
      ExtendsTrans(s.trace, invoked.trace, t);
    }
  }

  /** The record loop never takes back an event: every trace it passes
      through is a prefix of the one it ends with, and it adds no error
      metric. */
  lemma {:induction false} ProcessExtends(settings: Settings, env: Env, records: seq<Value>, j: nat, s: State)
    requires j <= |records|
    decreases |records| - j
    ensures Extends(TraceOf(Process(settings, env, records, j, s)), s.trace)
  {
    if j < |records| && Ingest(records[j], env.mail(j)).Some? {
      var (id, email) := Ingest(records[j], env.mail(j)).value;
      var next := State(s.batch + [Entry(id, email)], s.ids + [id], email.content, email.sender, s.flushes, s.trace);
      ProcessStep(settings, env, records, j, s, id, email);
      if !ClosesBatch(records, j, |s.batch|) {
        ProcessExtends(settings, env, records, j + 1, next);
      } else {
        var f := Flush(settings, env, next);
        FlushExtends(settings, env, next);
        if f.Running? {
          ProcessExtends(settings, env, records, j + 1, f.state);
          ExtendsTrans(s.trace, f.state.trace, TraceOf(Process(settings, env, records, j + 1, f.state)));
        }
      }
    }
  }

  /** Once the settings are read, the handler returns exactly when the
      record loop completes, with the loop's events. Otherwise the error
      metric is emitted once, after every event caused before the exception,
      none of which is taken back, and the exception is re-raised. */
  lemma HandleTrace(event: Value, env: Env)
    requires Setup(env.config).Ok?
    ensures var settings := Setup(env.config).value;
      var h := Handle(event, env);
      && (h.Done? <==> RecordsOf(event).Ok? && Process(settings, env, RecordsOf(event).value, 0, Initial).Running?)
      && (h.Done? ==> h.trace == Process(settings, env, RecordsOf(event).value, 0, Initial).state.trace)
      && (h.Failed? ==>
            && |h.trace| > 0 && h.trace[|h.trace| - 1] == ErrorMetric
            && h.trace[..|h.trace| - 1] ==
                 if RecordsOf(event).Raise? then [] else Process(settings, env, RecordsOf(event).value, 0, Initial).trace)
      && forall k :: 0 <= k < |h.trace| - (if h.Failed? then 1 else 0) ==> !h.trace[k].ErrorMetric?
  {
    var settings := Setup(env.config).value;
    var h := Handle(event, env);
    if RecordsOf(event).Ok? {
      var p := Process(settings, env, RecordsOf(event).value, 0, Initial);
      ProcessExtends(settings, env, RecordsOf(event).value, 0, Initial);
      if h.Failed? {
        assert h.trace[..|h.trace| - 1] == p.trace;
      }
    }
  }

  /** A record whose bucket name or object key cannot be read, whose key is
      not a string, or whose email cannot be fetched and parsed aborts the
      record loop on the spot: nothing after it is sent, and no event is
      added. */
  lemma UnreadableRecordAborts(settings: Settings, env: Env, records: seq<Value>, j: nat, s: State)
    requires j < |records| && Ingest(records[j], env.mail(j)).None?
    ensures Process(settings, env, records, j, s) == Aborted(s.trace)
  {
  }

  /** Without a configuration item (a ClientError, no item, or a get_item
      failure that escapes get_config) the handler raises before its try
      block: no invoke_bedrock call, and no error metric. */
  lemma AbsentConfig(event: Value, env: Env)
    requires !env.config.Item?
    ensures Handle(event, env) == Failed([])
  {
  }

  /** A configuration whose temperature int() rejects, or that has none,
      makes the handler raise before its try block: no invoke_bedrock call, and no
      error metric. */
  lemma RejectedTemperature(event: Value, env: Env)
    requires Config.GetConfig(env.config).Ok? && Config.GetConfig(env.config).value.Some?
    requires var config := Config.GetConfig(env.config).value.value;
      || "llmTemperature" !in Keys(config.entries)
      || IntOf(Lookup(config.entries, "llmTemperature").value).Raise?
    ensures Handle(event, env) == Failed([])
  {
  }

  // ---------------------------------------------------------------------
  // The imperative handler
  // ---------------------------------------------------------------------

  /** The body of the loop over the results, for result i. */
  method ProcessResult(settings: Settings, env: Env, s: State, result: Value, i: nat)
    returns (stop: bool, events: seq<Event>)
    ensures (if stop then Stop(events) else Continue(events)) == HandleResult(settings, env, s, result, i)
  {
    if i >= |s.ids| || !result.Dict? {
      return true, [];
    }
    var category := Get(result, "category", Str("unknown")).value;
    var complaint := Complaint(s, result, env.clock(s.flushes, i), i);
    var publication := Router.PublishToSns(Dict(complaint), category, settings.topics);
    if publication.Raise? {
      return true, [];
    }
    events := [];
    if publication.value.Some? {
      events := events + [Published(publication.value.value)];
    }
    var item, outcome := ActivityLog.LogActivity(s.ids[i], complaint, env.put(s.flushes, i));
    events := events + [Logged(item)];
    stop := outcome == ActivityLog.LogEscaped;
  }

  /** The loop over the results of one batch. Returns whether an exception
      escaped, and the events so far. */
  method DispatchResults(settings: Settings, env: Env, s: State, results: seq<Value>)
    returns (aborted: bool, trace: seq<Event>)
    ensures aborted == Dispatch(settings, env, s, results, 0).Aborted?
    ensures trace == if aborted then Dispatch(settings, env, s, results, 0).trace
                     else Dispatch(settings, env, s, results, 0).state.trace
  {
    trace := s.trace;
    var i := 0;
    while i < |results|
      invariant i <= |results|
      invariant Dispatch(settings, env, s, results, 0) == Dispatch(settings, env, s.(trace := trace), results, i)
    {
      var stop, events := ProcessResult(settings, env, s.(trace := trace), results[i], i);
      if stop {
        StopStep(settings, env, s.(trace := trace), results, i);
        return true, trace + events;
      }
      ContinueStep(settings, env, s.(trace := trace), results, i);
      trace := trace + events;
      i := i + 1;
    }
    return false, trace;
  }

  /** The flush block of the record loop: invoke_bedrock on the batch, then
      the loop over what it returned. */
  method FlushBatch(settings: Settings, env: Env, s: State) returns (aborted: bool, trace: seq<Event>)
    ensures aborted == Flush(settings, env, s).Aborted?
    ensures trace == if aborted then Flush(settings, env, s).trace else Flush(settings, env, s).state.trace
  {
    if !settings.modelId.Str? {
      return true, s.trace;
    }
    var result, delays, calls :=
      Invoker.InvokeBedrock(settings.modelId.s, settings.temperature, List(s.batch), settings.instructions,
                            Retries, Backoff, ClientFor(env, s.flushes), env.parse);
    trace := s.trace + [Invoked(s.batch)];
    if result.Raised? {
      return true, trace;
    }
    var iterated := Iterate(Returned(result));
    if iterated.Raise? {
      return true, trace;
    }
    aborted, trace := DispatchResults(settings, env, s.(trace := trace), iterated.value);
  }

  /** One step of the record loop, spelled out. */
  lemma ProcessStep(settings: Settings, env: Env, records: seq<Value>, j: nat, s: State, id: string, email: Email)
    requires j < |records| && Ingest(records[j], env.mail(j)) == Some((id, email))
    ensures var next := State(s.batch + [Entry(id, email)], s.ids + [id], email.content, email.sender,
                              s.flushes, s.trace);
      Process(settings, env, records, j, s) ==
        if !ClosesBatch(records, j, |s.batch|) then Process(settings, env, records, j + 1, next)
        else if Flush(settings, env, next).Aborted? then Aborted(Flush(settings, env, next).trace)
        else Process(settings, env, records, j + 1, Flush(settings, env, next).state)
  {
  }

  /** The body of the loop over the records, for record j: read the email,
      append its entry, and flush when the record closes the batch. */
  method ProcessRecord(settings: Settings, env: Env, records: seq<Value>, j: nat, s: State)
    returns (aborted: bool, next: State)
    requires j < |records|
    ensures aborted ==> Process(settings, env, records, j, s) == Aborted(next.trace)
    ensures !aborted ==> Process(settings, env, records, j, s) == Process(settings, env, records, j + 1, next)
  {
    var ingested := Ingest(records[j], env.mail(j));
    if ingested.None? {
      return true, s;
    }
    var (id, email) := ingested.value;
    ProcessStep(settings, env, records, j, s, id, email);
    var closes := ClosesBatch(records, j, |s.batch|);
    next := State(s.batch + [Entry(id, email)], s.ids + [id], email.content, email.sender, s.flushes, s.trace);
    if closes {
      ghost var flushed := Flush(settings, env, next);
      var trace;
      aborted, trace := FlushBatch(settings, env, next);
      if aborted {
        return true, next.(trace := trace);
      }
      next := State([], [], next.content, next.sender, next.flushes + 1, trace);
      assert flushed.state == next;
    } else {
      aborted := false;
    }
  }

  /** The loop over the records. Returns whether an exception escaped, and
      the events so far. */
  method ProcessRecords(settings: Settings, env: Env, records: seq<Value>)
    returns (aborted: bool, trace: seq<Event>)
    ensures aborted == Process(settings, env, records, 0, Initial).Aborted?
    ensures trace == if aborted then Process(settings, env, records, 0, Initial).trace
                     else Process(settings, env, records, 0, Initial).state.trace
  {
    var s := Initial;
    var j := 0;
    while j < |records|
      invariant j <= |records|
      invariant Process(settings, env, records, 0, Initial) == Process(settings, env, records, j, s)
    {
      aborted, s := ProcessRecord(settings, env, records, j, s);
      if aborted {
        return true, s.trace;
      }
      j := j + 1;
    }
    return false, s.trace;
  }

  /** lambda_handler with the services of `env`. */
  method LambdaHandler(event: Value, env: Env) returns (h: Handled)
    ensures h == Handle(event, env)
    ensures Setup(env.config).Raise? ==> h == Failed([])
    ensures Setup(env.config).Ok? && h.Failed? ==> |h.trace| > 0 && h.trace[|h.trace| - 1] == ErrorMetric
    ensures forall k :: 0 <= k < |h.trace| - (if h.Failed? then 1 else 0) ==> !h.trace[k].ErrorMetric?
  {
    var setup := Setup(env.config);
    if setup.Raise? {
      return Failed([]);
    }
    var recs := Subscript(event, "Records");
    if recs.Raise? {
      return Failed([ErrorMetric]);
    }
    var iterated := Iterate(recs.value);
    if iterated.Raise? {
      return Failed([ErrorMetric]);
    }
    HandleTrace(event, env);
    var aborted, trace := ProcessRecords(setup.value, env, iterated.value);
    if aborted {
      return Failed(trace + [ErrorMetric]);
    }
    return Done(trace);
  }
}

=== FILE: invoke_bedrock.dfy ===
/** The model invoker: builds the request for the configured model family,
    calls the model with bounded retries and exponential backoff, and
    normalises the model's text output into a list of results. */
module Invoker {
  import opened PyValue

  // ---------------------------------------------------------------------
  // Request construction
  // ---------------------------------------------------------------------

  predicate StartsWith(s: string, prefix: string)
  {
    |prefix| <= |s| && s[..|prefix|] == prefix
  }

  predicate OccursAt(s: string, sub: string, i: int)
  {
    0 <= i <= |s| - |sub| && s[i..i + |sub|] == sub
  }

  /** Python's `sub in s` for strings. */
  predicate Contains(s: string, sub: string)
  {
    exists i | 0 <= i <= |s| - |sub| :: OccursAt(s, sub, i)
  }

  datatype Family = Amazon | Anthropic

  function FamilyOf(modelId: string): Family
  {
    if StartsWith(modelId, "amazon.") then Amazon else Anthropic
  }

  /** Nucleus-sampling probability sent to Amazon models (a float in the
      source, kept here as an opaque constant). */
  const TopP: real := 0.8

  /** A content block: {"text": t} or {"type": kind, "text": t}. The texts
      are the prompt and the instructions, carried as the values they
      serialise. */
  datatype Block = TextBlock(text: Value) | TypedBlock(kind: string, text: Value)

  datatype Message = Message(role: string, content: seq<Block>)

  datatype InferenceConfig = InferenceConfig(maxTokens: int, temperature: int, topP: real)

  datatype Request =
    | AmazonRequest(schemaVersion: string, messages: seq<Message>, system: seq<Block>,
                    inferenceConfig: InferenceConfig)
    | AnthropicRequest(anthropicVersion: string, maxTokens: int, temperature: int,
                       messages: seq<Message>)
  {
    function MaxTokens(): int
    {
      if AmazonRequest? then inferenceConfig.maxTokens else maxTokens
    }

    function Temperature(): int
    {
      if AmazonRequest? then inferenceConfig.temperature else temperature
    }

    /** The texts of every block of every user message, in order. */
    function UserTexts(): seq<Value>
    {
      UserTextsFrom(messages)
    }

    function SystemTexts(): seq<Value>
    {
      if AmazonRequest? then BlockTexts(system) else []
    }
  }

  function BlockTexts(blocks: seq<Block>): seq<Value>
  {
    if |blocks| == 0 then [] else [blocks[0].text] + BlockTexts(blocks[1..])
  }

  function UserTextsFrom(messages: seq<Message>): seq<Value>
  {
    if |messages| == 0 then []
    else (if messages[0].role == "user" then BlockTexts(messages[0].content) else [])
         + UserTextsFrom(messages[1..])
  }

  /** The request body for the model family the id names. Amazon models get
      the prompt as the only user text, the instructions as the system text
      and 1024 output tokens for Nova Micro (2048 otherwise); every other id
      gets the Anthropic shape with 2048 tokens and one user message holding
      the instructions and then the prompt. The temperature is forwarded
      unchanged in both. */
  function BuildRequest(modelId: string, temperature: int, prompt: Value, instructions: Value): Request
  {
    if FamilyOf(modelId) == Amazon then
      var maxTokens := if Contains(modelId, "nova-micro") then 1024 else 2048;
      AmazonRequest(
        "messages-v1",
        [Message("user", [TextBlock(prompt)])],
        [TextBlock(instructions)],
        InferenceConfig(maxTokens, temperature, TopP))
    else
      var blocks := [TypedBlock("text", instructions), TypedBlock("text", prompt)];
      AnthropicRequest("bedrock-2023-05-31", 2048, temperature, [Message("user", blocks)])
  }

  /** What the built request holds, for either family. */
  lemma RequestShape(modelId: string, temperature: int, prompt: Value, instructions: Value)
    ensures var r := BuildRequest(modelId, temperature, prompt, instructions);
      && (r.AmazonRequest? <==> StartsWith(modelId, "amazon."))
      && r.Temperature() == temperature
      && r.MaxTokens() == (if r.AmazonRequest? && Contains(modelId, "nova-micro") then 1024 else 2048)
      && |r.messages| == 1 && r.messages[0].role == "user"
      && (r.AmazonRequest? ==>
            && r.UserTexts() == [prompt] && r.SystemTexts() == [instructions]
            && r.schemaVersion == "messages-v1" && r.inferenceConfig.topP == TopP)
      && (r.AnthropicRequest? ==>
            && r.UserTexts() == [instructions, prompt] && r.SystemTexts() == []
            && r.anthropicVersion == "bedrock-2023-05-31"
            && forall b :: b in r.messages[0].content ==> b.TypedBlock? && b.kind == "text")
  {
    var r := BuildRequest(modelId, temperature, prompt, instructions);
    if FamilyOf(modelId) == Amazon {
      assert BlockTexts([TextBlock(prompt)]) == [prompt];
      assert BlockTexts([TextBlock(instructions)]) == [instructions];
      assert UserTextsFrom(r.messages) == BlockTexts([TextBlock(prompt)]) + UserTextsFrom([]);
    } else {
      var blocks := [TypedBlock("text", instructions), TypedBlock("text", prompt)];
      assert BlockTexts(blocks) == [instructions] + BlockTexts(blocks[1..]);
      assert BlockTexts(blocks[1..]) == [prompt] + BlockTexts([]);
      assert UserTextsFrom(r.messages) == BlockTexts(blocks) + UserTextsFrom([]);
    }
  }

  /** The configuration the stack deploys: Nova Micro, temperature 1. */
  lemma DeployedRequest(prompt: Value, instructions: Value)
    ensures var r := BuildRequest("amazon.nova-micro-v1:0", 1, prompt, instructions);
      r.AmazonRequest? && r.MaxTokens() == 1024 && r.Temperature() == 1
  {
    var id := "amazon.nova-micro-v1:0";
    assert id[..7] == "amazon.";
    assert OccursAt(id, "nova-micro", 7);
  }

  // ---------------------------------------------------------------------
  // One attempt
  // ---------------------------------------------------------------------

  /** json.loads on a text: either not JSON (JSONDecodeError) or a value. */
  datatype Parsed = NotJson | Json(value: Value)

  /** One call of the model client. */
  datatype Call = Call(modelId: string, body: Request, attempt: nat)

  /** What a call of the model client does: raise a ClientError, raise some
      other exception, or respond with a body text. */
  datatype CallOutcome = ClientError(message: string) | OtherError | Responded(body: string)

  /** Why an attempt failed in a way the loop retries. */
  datatype Failure = ServiceError(message: string) | MalformedJson | EmptyContent

  /** How one attempt ends: with results, with a caught failure, or with an
      exception the loop does not catch. */
  datatype Step = Returned(results: seq<Value>) | Retry(reason: Failure) | Escape

  /** A parsed list is the result list itself; any other value is wrapped. */
  function Normalise(v: Value): seq<Value>
  {
    if v.List? then v.items else [v]
  }

  /** The placeholder result for Amazon output text that is not JSON. */
  function Fallback(text: string): Value
  {
    Dict([("category", Str("unknown")), ("urgency", Str("non-urgent")), ("summary", Str(text))])
  }

  /** response['output']['message']['content'][0]['text'] */
  function OutputText(response: Value): Result<Value>
  {
    match Subscript(response, "output")
    case Raise(e) => Raise(e)
    case Ok(output) =>
      match Subscript(output, "message")
      case Raise(e) => Raise(e)
      case Ok(message) =>
        match Subscript(message, "content")
        case Raise(e) => Raise(e)
        case Ok(content) =>
          match Head(content)
          case Raise(e) => Raise(e)
          case Ok(first) => Subscript(first, "text")
  }

  /** The Amazon branch: a missing key or index escapes, output text that is
      not JSON gives the placeholder result. */
  function AmazonStep(response: Value, parse: string -> Parsed): Step
  {
    match OutputText(response)
    case Raise(_) => Escape
    case Ok(text) =>
      if !text.Str? then Escape
      else
        match parse(text.s)
        case NotJson => Returned([Fallback(text.s)])
        case Json(v) => Returned(Normalise(v))
  }

  /** The Anthropic branch: empty content or empty text is a ValueError and
      text that is not JSON a JSONDecodeError, both retried. */
  function AnthropicStep(response: Value, parse: string -> Parsed): Step
  {
    match Get(response, "content", List([]))
    case Raise(_) => Escape
    case Ok(content) =>
      if !Truthy(content) then Retry(EmptyContent)
      else
        match Head(content)
        case Raise(_) => Escape
        case Ok(first) =>
          match Get(first, "text", Null)
          case Raise(_) => Escape
          case Ok(text) =>
            if !Truthy(text) then Retry(EmptyContent)
            else if !text.Str? then Escape
            else
              match parse(text.s)
              case NotJson => Retry(MalformedJson)
              case Json(v) => Returned(Normalise(v))
  }

  /** The body of the try block for one attempt. */
  function Attempt(family: Family, outcome: CallOutcome, parse: string -> Parsed): Step
  {
    match outcome
    case ClientError(message) => Retry(ServiceError(message))
    case OtherError => Escape
    case Responded(body) =>
      match parse(body)
      case NotJson => Retry(MalformedJson)
      case Json(response) =>
        if family == Amazon then AmazonStep(response, parse) else AnthropicStep(response, parse)
  }

  /** Amazon output text that is a string decides the attempt: JSON is
      normalised into the result list, anything else becomes the single
      "unknown" placeholder carrying the text. Nothing is retried. */
  lemma AmazonTextOutcome(response: Value, parse: string -> Parsed, t: string)
    requires OutputText(response) == Ok(Str(t))
    ensures AmazonStep(response, parse) ==
      if parse(t).NotJson? then Returned([Fallback(t)]) else Returned(Normalise(parse(t).value))
  {
  }

  /** An Amazon response on which response['output']['message']['content'][0]['text']
      raises (a missing key, an empty content list, a value of the wrong
      type) makes the attempt raise an exception the loop does not catch. */
  lemma AmazonMissingOutputEscapes(response: Value, parse: string -> Parsed)
    requires OutputText(response).Raise?
    ensures AmazonStep(response, parse) == Escape
  {
  }

  /** A parsed Anthropic response that is not a dict has no .get: the
      AttributeError escapes. */
  lemma AnthropicNonDictEscapes(response: Value, parse: string -> Parsed)
    requires !response.Dict?
    ensures AnthropicStep(response, parse) == Escape
  {
  }

  /** An Anthropic response whose content is missing or empty is the
      retried ValueError. */
  lemma AnthropicEmptyContentRetried(response: Value, parse: string -> Parsed)
    requires response.Dict? && !Truthy(Get(response, "content", List([])).value)
    ensures AnthropicStep(response, parse) == Retry(EmptyContent)
  {
  }

  /** An Anthropic response whose first content block is a dict with a
      missing or empty text is the retried ValueError too. */
  lemma AnthropicEmptyTextRetried(response: Value, parse: string -> Parsed, first: Value)
    requires response.Dict? && Head(Get(response, "content", List([])).value) == Ok(first)
    requires first.Dict? && !Truthy(Get(first, "text", Null).value)
    ensures AnthropicStep(response, parse) == Retry(EmptyContent)
  {
  }

  /** A non-empty text in the first content block decides the attempt: JSON
      is normalised into the result list, anything else is the retried
      JSONDecodeError. */
  lemma AnthropicTextOutcome(response: Value, parse: string -> Parsed, first: Value, t: string)
    requires response.Dict? && Head(Get(response, "content", List([])).value) == Ok(first)
    requires first.Dict? && Get(first, "text", Null) == Ok(Str(t)) && t != ""
    ensures AnthropicStep(response, parse) ==
      if parse(t).NotJson? then Retry(MalformedJson) else Returned(Normalise(parse(t).value))
  {
  }

  /** For any Amazon response and any Anthropic response carrying the same
      non-empty output text t, the two families agree when t is JSON (a list
      is the result list, anything else is wrapped as the single result) and
      differ when it is not: Amazon degrades to the "unknown" placeholder,
      Anthropic retries. */
  lemma OutputNormalisation(amazon: Value, anthropic: Value, first: Value, t: string, parse: string -> Parsed)
    requires OutputText(amazon) == Ok(Str(t))
    requires anthropic.Dict? && Head(Get(anthropic, "content", List([])).value) == Ok(first)
    requires first.Dict? && Get(first, "text", Null) == Ok(Str(t)) && t != ""
    ensures parse(t).NotJson? ==>
      && AmazonStep(amazon, parse) == Returned([Fallback(t)])
      && AnthropicStep(anthropic, parse) == Retry(MalformedJson)
    ensures parse(t).Json? ==>
      && AmazonStep(amazon, parse) == AnthropicStep(anthropic, parse)
      && AmazonStep(amazon, parse) ==
           Returned(if parse(t).value.List? then parse(t).value.items else [parse(t).value])
  {
    AmazonTextOutcome(amazon, parse, t);
    AnthropicTextOutcome(anthropic, parse, first, t);
  }

  // ---------------------------------------------------------------------
  // The retry loop
  // ---------------------------------------------------------------------

  /** What invoke_bedrock returns: the result list, the error dict
      {statusCode: 500, body: ...} after the last failed attempt, None when
      the loop never runs, or an exception that escapes. */
  datatype Invocation =
    | Results(items: seq<Value>)
    | ErrorResponse(statusCode: int, error: Failure)
    | NoneReturned
    | Raised

  /** An invocation: its outcome, the delays it slept for, and how many
      times it called the model. */
  datatype Run = Run(result: Invocation, delays: seq<int>, calls: nat)

  function Pow(b: int, e: nat): int
  {
    if e == 0 then 1 else b * Pow(b, e - 1)
  }

  function AttemptAt(modelId: string, request: Request, client: Call -> CallOutcome,
                     parse: string -> Parsed, k: nat): Step
  {
    Attempt(FamilyOf(modelId), client(Call(modelId, request, k)), parse)
  }

  /** The loop `for attempt in range(retries)` from the given attempt on. A
      caught failure before the last attempt sleeps backoff^(attempt+1)
      seconds (time.sleep rejects a negative length by raising); the last
      one returns the error dict. */
  function RetryLoop(modelId: string, request: Request, retries: int, backoff: int,
                     client: Call -> CallOutcome, parse: string -> Parsed, attempt: nat): Run
    decreases if attempt < retries then retries - attempt else 0
  {
    if attempt >= retries then Run(NoneReturned, [], attempt)
    else
      match AttemptAt(modelId, request, client, parse, attempt)
      case Returned(xs) => Run(Results(xs), [], attempt + 1)
      case Escape => Run(Raised, [], attempt + 1)
      case Retry(reason) =>
        if attempt < retries - 1 then
          var delay := Pow(backoff, attempt + 1);
          if delay < 0 then Run(Raised, [], attempt + 1)
          else
            var rest := RetryLoop(modelId, request, retries, backoff, client, parse, attempt + 1);
            Run(rest.result, [delay] + rest.delays, rest.calls)
        else Run(ErrorResponse(500, reason), [], attempt + 1)
  }

  /** How the attempt that ends the loop determines the outcome. */
  predicate EndsWith(run: Run, step: Step, retries: int, backoff: int)
  {
    match step
    case Returned(xs) => run.result == Results(xs)
    case Escape => run.result == Raised
    case Retry(reason) =>
      || (run.calls == retries && run.result == ErrorResponse(500, reason))
      || (run.calls < retries && Pow(backoff, run.calls) < 0 && run.result == Raised)
  }

  /** The call count and the delays slept, from the given attempt on. */
  lemma {:induction false} RetryDelays(modelId: string, request: Request, retries: int, backoff: int,
                                       client: Call -> CallOutcome, parse: string -> Parsed, a: nat)
    ensures var run := RetryLoop(modelId, request, retries, backoff, client, parse, a);
      && (a >= retries ==> run == Run(NoneReturned, [], a))
      && (a < retries ==> a < run.calls <= retries && |run.delays| == run.calls - 1 - a)
      && (forall k :: 0 <= k < |run.delays| ==> run.delays[k] == Pow(backoff, a + k + 1))
    decreases if a < retries then retries - a else 0
  {
    if a < retries - 1 && AttemptAt(modelId, request, client, parse, a).Retry? && Pow(backoff, a + 1) >= 0 {
      RetryDelays(modelId, request, retries, backoff, client, parse, a + 1);
    }
  }

  /** Every attempt before the last failed in a caught way. */
  lemma {:induction false} RetriedBefore(modelId: string, request: Request, retries: int, backoff: int,
                                         client: Call -> CallOutcome, parse: string -> Parsed, a: nat)
    ensures var run := RetryLoop(modelId, request, retries, backoff, client, parse, a);
      forall k :: a <= k < run.calls - 1 ==> AttemptAt(modelId, request, client, parse, k).Retry?
    decreases if a < retries then retries - a else 0
  {
    var run := RetryLoop(modelId, request, retries, backoff, client, parse, a);
    if a < retries - 1 && AttemptAt(modelId, request, client, parse, a).Retry? && Pow(backoff, a + 1) >= 0 {
      var rest := RetryLoop(modelId, request, retries, backoff, client, parse, a + 1);
      assert run.calls == rest.calls;
      RetriedBefore(modelId, request, retries, backoff, client, parse, a + 1);
    } else {
      assert run.calls <= a + 1;
    }
  }

  /** The attempt that ends the loop decides the outcome. */
  lemma {:induction false} LastAttemptDecides(modelId: string, request: Request, retries: int, backoff: int,
                                              client: Call -> CallOutcome, parse: string -> Parsed, a: nat)
    requires a < retries
    ensures var run := RetryLoop(modelId, request, retries, backoff, client, parse, a);
      && run.calls > a
      && EndsWith(run, AttemptAt(modelId, request, client, parse, run.calls - 1), retries, backoff)
    decreases retries - a
  {
    var run := RetryLoop(modelId, request, retries, backoff, client, parse, a);
    var step := AttemptAt(modelId, request, client, parse, a);
    if a < retries - 1 && step.Retry? && Pow(backoff, a + 1) >= 0 {
      var rest := RetryLoop(modelId, request, retries, backoff, client, parse, a + 1);
      assert run.calls == rest.calls && run.result == rest.result;
      LastAttemptDecides(modelId, request, retries, backoff, client, parse, a + 1);
    } else {
      assert run.calls == a + 1;
    }
  }

  /** The model is called at most `retries` times, and not at all when
      retries <= 0 (the function then returns None); every attempt but the
      last failed in a caught way, and the last decides the outcome: its
      results, its escaping exception, or, once the attempts are used up,
      the error dict. The delays slept are backoff^1, backoff^2, ... one
      after each failed attempt but the last. */
  lemma RetryContract(modelId: string, request: Request, retries: int, backoff: int,
                      client: Call -> CallOutcome, parse: string -> Parsed)
    ensures var run := RetryLoop(modelId, request, retries, backoff, client, parse, 0);
      && (retries <= 0 ==> run == Run(NoneReturned, [], 0))
      && (retries > 0 ==> 1 <= run.calls <= retries && |run.delays| == run.calls - 1)
      && (forall k :: 0 <= k < |run.delays| ==> run.delays[k] == Pow(backoff, k + 1))
      && (forall k :: 0 <= k < run.calls - 1 ==> AttemptAt(modelId, request, client, parse, k).Retry?)
      && (retries > 0 ==> EndsWith(run, AttemptAt(modelId, request, client, parse, run.calls - 1), retries, backoff))
  {
    RetryDelays(modelId, request, retries, backoff, client, parse, 0);
    RetriedBefore(modelId, request, retries, backoff, client, parse, 0);
    if retries > 0 {
      LastAttemptDecides(modelId, request, retries, backoff, client, parse, 0);
    }
  }

  /** With a model that always fails in a caught way and a non-negative
      backoff base, every attempt is used and the error dict carries the
      last failure; the defaults (3 attempts, base 2) sleep 2 then 4
      seconds. */
  lemma AlwaysFailing(modelId: string, request: Request, retries: int, backoff: int,
                      client: Call -> CallOutcome, parse: string -> Parsed)
    requires retries > 0 && backoff >= 0
    requires forall k :: 0 <= k < retries ==> AttemptAt(modelId, request, client, parse, k).Retry?
    ensures var run := RetryLoop(modelId, request, retries, backoff, client, parse, 0);
      && run.calls == retries
      && run.result == ErrorResponse(500, AttemptAt(modelId, request, client, parse, retries - 1).reason)
      && (retries == 3 && backoff == 2 ==> run.delays == [2, 4])
  {
    RetryContract(modelId, request, retries, backoff, client, parse);
    var run := RetryLoop(modelId, request, retries, backoff, client, parse, 0);
    NonNegativePow(backoff, run.calls);
    if retries == 3 && backoff == 2 {
      assert Pow(2, 1) == 2 && Pow(2, 2) == 4;
    }
  }

  lemma NonNegativePow(b: int, e: nat)
    requires b >= 0
    ensures Pow(b, e) >= 0
  {
  }

  /** An exception the loop does not catch (an Amazon response without the
      expected keys, say) ends the invocation on the first attempt, with
      no retry and no sleep. */
  lemma EscapeOnFirstAttempt(modelId: string, request: Request, retries: int, backoff: int,
                             client: Call -> CallOutcome, parse: string -> Parsed)
    requires retries > 0
    requires AttemptAt(modelId, request, client, parse, 0).Escape?
    ensures RetryLoop(modelId, request, retries, backoff, client, parse, 0) == Run(Raised, [], 1)
  {
  }

  /** invoke_bedrock(bedrockModelID, llmTemperature, prompt, instructions,
      retries, backoff_in_seconds) with the model client and json.loads
      given as oracles; `delays` are the lengths passed to time.sleep. */
  method InvokeBedrock(modelId: string, temperature: int, prompt: Value, instructions: Value,
                       retries: int, backoff: int,
                       client: Call -> CallOutcome, parse: string -> Parsed)
    returns (result: Invocation, delays: seq<int>, calls: nat)
    ensures Run(result, delays, calls) ==
      RetryLoop(modelId, BuildRequest(modelId, temperature, prompt, instructions),
                retries, backoff, client, parse, 0)
  {
    var request := BuildRequest(modelId, temperature, prompt, instructions);
    result, delays, calls := Attempts(modelId, request, retries, backoff, client, parse);
  }

  /** The loop over the attempts of invoke_bedrock, on the built request. */
  method Attempts(modelId: string, request: Request, retries: int, backoff: int,
                  client: Call -> CallOutcome, parse: string -> Parsed)
    returns (result: Invocation, delays: seq<int>, calls: nat)
    ensures Run(result, delays, calls) == RetryLoop(modelId, request, retries, backoff, client, parse, 0)
  {
    var family := FamilyOf(modelId);
    ghost var spec := RetryLoop(modelId, request, retries, backoff, client, parse, 0);
    delays := [];
    var attempt := 0;
    while attempt < retries
      invariant |delays| == attempt
      invariant var rest := RetryLoop(modelId, request, retries, backoff, client, parse, attempt);
        spec == Run(rest.result, delays + rest.delays, rest.calls)
      decreases retries - attempt
    {
      var step := Attempt(family, client(Call(modelId, request, attempt)), parse);
      assert step == AttemptAt(modelId, request, client, parse, attempt);
      match step {
        case Returned(xs) =>
          result, calls := Results(xs), attempt + 1;
          return;
        case Escape =>
          result, calls := Raised, attempt + 1;
          return;
        case Retry(reason) =>
          if attempt < retries - 1 {
            var delay := Pow(backoff, attempt + 1);
            if delay < 0 {
              result, calls := Raised, attempt + 1;
              return;
            }
            ghost var rest := RetryLoop(modelId, request, retries, backoff, client, parse, attempt + 1);
            assert delays + [delay] + rest.delays == delays + ([delay] + rest.delays);
            delays := delays + [delay];
          } else {
            result, calls := ErrorResponse(500, reason), attempt + 1;
            return;
          }
      }
      attempt := attempt + 1;
    }
    result, calls := NoneReturned, attempt;
  }
}

=== FILE: log_activity.dfy ===
/** The activity logger: one complaint becomes one DynamoDB item whose
    scalar fields are written as typed attribute values. */
module ActivityLog {
  import opened PyValue
  import Config

  /** A DynamoDB attribute value in the low-level shape put_item takes. */
  datatype Attr = S(s: string) | N(n: string) | BOOL(b: bool)

  /** An item: attribute name to typed value, in insertion order. */
  type Item = seq<(string, Attr)>

  /** The attribute a complaint value is written as; None for the values
      the logger skips (lists, dicts, None). A Python bool is checked before
      the number case, so True is written as BOOL and never as N. */
  function Encode(v: Value): Option<Attr>
  {
    match v
    case Str(s) => Some(S(s))
    case Bool(b) => Some(BOOL(b))
    case Int(i) => Some(N(Decimal(i)))
    case _ => None
  }

  /** The item after the loop has visited the given complaint entries. */
  function ItemOf(messageId: string, entries: seq<(string, Value)>): Item
  {
    if |entries| == 0 then [("message_id", S(messageId))]
    else
      var prev := ItemOf(messageId, entries[..|entries| - 1]);
      var (key, value) := entries[|entries| - 1];
      match Encode(value)
      case Some(a) => Put(prev, key, a)
      case None => prev
  }

  /** Keys of the scalar-valued complaint entries other than 'message_id',
      in complaint order. */
  function ScalarKeys(entries: seq<(string, Value)>): seq<string>
  {
    if |entries| == 0 then []
    else
      var (key, value) := entries[|entries| - 1];
      ScalarKeys(entries[..|entries| - 1])
      + if Encode(value).Some? && key != "message_id" then [key] else []
  }

  /** What the stored item holds under key k. */
  function Expected(messageId: string, complaint: seq<(string, Value)>, k: string): Option<Attr>
  {
    match Lookup(complaint, k)
    case Some(v) =>
      if Encode(v).Some? then Encode(v)
      else if k == "message_id" then Some(S(messageId)) else None
    case None => if k == "message_id" then Some(S(messageId)) else None
  }

  /** The item starts with message_id, then lists the scalar-valued
      complaint keys in complaint order, with no key twice. */
  lemma {:induction false} ItemKeys(messageId: string, complaint: seq<(string, Value)>)
    requires UniqueKeys(complaint)
    ensures Keys(ItemOf(messageId, complaint)) == ["message_id"] + ScalarKeys(complaint)
    ensures UniqueKeys(ItemOf(messageId, complaint))
    ensures forall k :: k in ScalarKeys(complaint) ==> k in Keys(complaint)
  {
    var item := ItemOf(messageId, complaint);
    if |complaint| == 0 {
      assert Keys(item) == ["message_id"];
    } else {
      var pre := complaint[..|complaint| - 1];
      var (key, value) := complaint[|complaint| - 1];
      assert complaint == pre + [(key, value)];
      assert UniqueKeys(pre);
      ItemKeys(messageId, pre);
      var prev := ItemOf(messageId, pre);
      assert Keys(complaint) == Keys(pre) + [key];
      assert key !in Keys(pre);
      match Encode(value)
      case None =>
        assert item == prev;
      case Some(a) =>
        assert item == Put(prev, key, a);
        PutKeys(prev, key, a);
        PutUnique(prev, key, a);
        if key == "message_id" {
          assert Keys(prev)[0] == "message_id";
        }
    }
  }

  /** Each key of the item holds the encoding of the complaint's value, and
      a scalar complaint entry named message_id overwrites the message id. */
  lemma {:induction false} ItemLookups(messageId: string, complaint: seq<(string, Value)>)
    requires UniqueKeys(complaint)
    ensures forall k :: Lookup(ItemOf(messageId, complaint), k) == Expected(messageId, complaint, k)
  {
    var item := ItemOf(messageId, complaint);
    if |complaint| == 0 {
      forall k ensures Lookup(item, k) == Expected(messageId, complaint, k) {
        assert Keys(complaint) == [];
        assert Keys(item[1..]) == [];
      }
    } else {
      var pre := complaint[..|complaint| - 1];
      var (key, value) := complaint[|complaint| - 1];
      assert complaint == pre + [(key, value)];
      assert UniqueKeys(pre);
      ItemLookups(messageId, pre);
      var prev := ItemOf(messageId, pre);
      assert Keys(complaint) == Keys(pre) + [key];
      assert key !in Keys(pre);
      forall k ensures Lookup(complaint, k) == if k == key then Some(value) else Lookup(pre, k) {
        LookupAppend(pre, key, value, k);
      }
      match Encode(value)
      case None =>
        assert item == prev;
      case Some(a) =>
        assert item == Put(prev, key, a);
        forall k ensures Lookup(item, k) == Expected(messageId, complaint, k) {
          PutLookup(prev, key, a, k);
        }
    }
  }

  /** The item starts with message_id, then lists the scalar-valued
      complaint keys in complaint order; each holds the encoding of the
      complaint's value, and a scalar complaint entry named message_id
      overwrites the first entry in place. */
  lemma ItemContents(messageId: string, complaint: seq<(string, Value)>)
    requires UniqueKeys(complaint)
    ensures Keys(ItemOf(messageId, complaint)) == ["message_id"] + ScalarKeys(complaint)
    ensures UniqueKeys(ItemOf(messageId, complaint))
    ensures forall k :: Lookup(ItemOf(messageId, complaint), k) == Expected(messageId, complaint, k)
    ensures forall k :: k in ScalarKeys(complaint) ==> k in Keys(complaint)
  {
    ItemKeys(messageId, complaint);
    ItemLookups(messageId, complaint);
  }

  /** What put_item does with the item. */
  datatype PutOutcome = PutSucceeded | PutClientError | PutOtherError

  /** What log_activity gives back: the put response, None after a
      ClientError, or an exception that escapes. */
  datatype LogResult = PutResponse | LoggedNone | LogEscaped

  /** log_activity: builds the typed item from the complaint, entry by entry,
      and stores it. */
  method LogActivity(messageId: string, complaint: seq<(string, Value)>, outcome: PutOutcome)
    returns (item: Item, result: LogResult)
    ensures item == ItemOf(messageId, complaint)
    ensures result == match outcome
      case PutSucceeded => PutResponse
      case PutClientError => LoggedNone
      case PutOtherError => LogEscaped
  {
    item := [("message_id", S(messageId))];
    var j := 0;
    while j < |complaint|
      invariant j <= |complaint|
      invariant item == ItemOf(messageId, complaint[..j])
    {
      assert complaint[..j + 1][..j] == complaint[..j];
      var (key, value) := complaint[j];
      match value {
        case Str(s) => item := Put(item, key, S(s));
        case Bool(b) => item := Put(item, key, BOOL(b));
        case Int(i) => item := Put(item, key, N(Decimal(i)));
        case _ =>
      }
      j := j + 1;
    }
    assert complaint[..j] == complaint;
    match outcome {
      case PutSucceeded => result := PutResponse;
      case PutClientError => result := LoggedNone;
      case PutOtherError => result := LogEscaped;
    }
  }

  /** An attribute as get_item hands it back: {'S': s}, {'N': n}, {'BOOL': b}. */
  function AttrValue(a: Attr): Value
  {
    match a
    case S(s) => Dict([("S", Str(s))])
    case N(n) => Dict([("N", Str(n))])
    case BOOL(b) => Dict([("BOOL", Bool(b))])
  }

  /** Reading back what the logger writes: the configuration unwrapper
      recovers strings and integers exactly, and returns a bool still
      wrapped, since it knows no 'BOOL' tag. */
  lemma EncodeThenConvert(v: Value)
    requires Encode(v).Some?
    ensures Config.ConvertItem(AttrValue(Encode(v).value)) == Ok(if v.Bool? then AttrValue(BOOL(v.b)) else v)
  {
    match v
    case Str(s) =>
      assert Keys([("S", Str(s))]) == ["S"];
    case Int(i) =>
      NumberThenConvert(i);
    case Bool(b) =>
      var es := [("BOOL", Bool(b))];
      assert Keys(es) == ["BOOL"];
      assert !Config.IsTagged(Dict(es));
  }

  lemma NumberThenConvert(i: int)
    ensures Config.ConvertItem(AttrValue(N(Decimal(i)))) == Ok(Int(i))
  {
    var es := [("N", Str(Decimal(i)))];
    assert Keys(es) == ["N"];
    assert Config.KeyIndex(es, "N") == 0;
    DecimalRoundTrip(i);
    assert IntOf(Str(Decimal(i))) == Ok(i);
  }
}

=== FILE: python_value.dfy ===
/** Python values as the classification lambdas handle them: the JSON-like
    values that json.loads produces and that boto3 hands back for DynamoDB
    items, together with the few built-in operations the lambdas apply to
    them (dict lookup and assignment, truthiness, int(), str(), ==). */
module PyValue {

  datatype Option<+T> = None | Some(value: T)

  /** The kind of Python exception an operation raises. BotoCoreError is an
      AWS client failure that is not a ClientError (a botocore error such as
      a connection failure or missing credentials). */
  datatype PyError = TypeError | ValueError | KeyError | IndexError | AttributeError | BotoCoreError

  /** Either a value or an exception that escapes the operation. */
  datatype Result<+T> = Ok(value: T) | Raise(error: PyError)

  /** A Python value. A dict is an insertion-ordered list of entries, since
      Python dicts remember the order in which keys were first inserted. */
  datatype Value =
    | Null
    | Bool(b: bool)
    | Int(i: int)
    | Str(s: string)
    | List(items: seq<Value>)
    | Dict(entries: seq<(string, Value)>)

  // ---------------------------------------------------------------------
  // Dicts as ordered entry lists
  // ---------------------------------------------------------------------

  function Keys<V>(entries: seq<(string, V)>): seq<string>
  {
    seq(|entries|, i requires 0 <= i < |entries| => entries[i].0)
  }

  /** A Python dict never holds the same key twice. */
  ghost predicate UniqueKeys<V>(entries: seq<(string, V)>)
  {
    forall i, j :: 0 <= i < j < |entries| ==> entries[i].0 != entries[j].0
  }

  /** d[k] if k is a key of d. */
  function Lookup<V>(entries: seq<(string, V)>, k: string): (r: Option<V>)
    ensures r.None? <==> k !in Keys(entries)
    ensures r.Some? ==> exists i :: 0 <= i < |entries| && entries[i] == (k, r.value)
  {
    if |entries| == 0 then None
    else if entries[0].0 == k then
      assert Keys(entries)[0] == k;
      Some(entries[0].1)
    else
      var r := Lookup(entries[1..], k);
      assert Keys(entries) == [entries[0].0] + Keys(entries[1..]);
      assert r.Some? ==> exists i :: 0 <= i < |entries| - 1 && entries[1..][i] == (k, r.value);
      r
  }

  /** d[k] = v: an existing key keeps its position, a new key goes last. */
  function Put<V>(entries: seq<(string, V)>, k: string, v: V): seq<(string, V)>
  {
    if |entries| == 0 then [(k, v)]
    else if entries[0].0 == k then [(k, v)] + entries[1..]
    else [entries[0]] + Put(entries[1..], k, v)
  }

  lemma KeysCons<V>(e: (string, V), rest: seq<(string, V)>)
    ensures Keys([e] + rest) == [e.0] + Keys(rest)
  {
  }

  lemma {:induction false} PutKeys<V>(entries: seq<(string, V)>, k: string, v: V)
    ensures Keys(Put(entries, k, v)) == if k in Keys(entries) then Keys(entries) else Keys(entries) + [k]
  {
    if |entries| > 0 {
      var rest := entries[1..];
      assert entries == [entries[0]] + rest;
      KeysCons(entries[0], rest);
      if entries[0].0 == k {
        assert Put(entries, k, v) == [(k, v)] + rest;
        KeysCons((k, v), rest);
      } else {
        PutKeys(rest, k, v);
        assert Put(entries, k, v) == [entries[0]] + Put(rest, k, v);
        KeysCons(entries[0], Put(rest, k, v));
      }
    } else {
      assert Keys([(k, v)]) == [k];
    }
  }

  lemma {:induction false} PutLookup<V>(entries: seq<(string, V)>, k: string, v: V, k': string)
    ensures Lookup(Put(entries, k, v), k') == if k' == k then Some(v) else Lookup(entries, k')
  {
    if |entries| > 0 && entries[0].0 != k {
      PutLookup(entries[1..], k, v, k');
      assert Put(entries, k, v)[1..] == Put(entries[1..], k, v);
    } else if |entries| > 0 {
      assert Put(entries, k, v)[1..] == entries[1..];
    }
  }

  lemma {:induction false} LookupAppend<V>(entries: seq<(string, V)>, k: string, v: V, k': string)
    ensures Lookup(entries + [(k, v)], k') ==
      if k' in Keys(entries) then Lookup(entries, k') else if k' == k then Some(v) else None
  {
    if |entries| > 0 {
      assert (entries + [(k, v)])[1..] == entries[1..] + [(k, v)];
      assert Keys(entries) == [entries[0].0] + Keys(entries[1..]);
      LookupAppend(entries[1..], k, v, k');
    } else {
      assert Keys(entries) == [];
    }
  }

  lemma PutUnique<V>(entries: seq<(string, V)>, k: string, v: V)
    requires UniqueKeys(entries)
    ensures UniqueKeys(Put(entries, k, v))
  {
    var r := Put(entries, k, v);
    PutKeys(entries, k, v);
    assert forall i :: 0 <= i < |r| ==> Keys(r)[i] == r[i].0;
    assert forall i :: 0 <= i < |entries| ==> Keys(entries)[i] == entries[i].0;
  }

  // ---------------------------------------------------------------------
  // Built-in operations
  // ---------------------------------------------------------------------

  /** bool(v) */
  predicate Truthy(v: Value)
  {
    match v
    case Null => false
    case Bool(b) => b
    case Int(i) => i != 0
    case Str(s) => |s| > 0
    case List(xs) => |xs| > 0
    case Dict(es) => |es| > 0
  }

  /** v.get(k, default): only a dict has a get method. */
  function Get(v: Value, k: string, default: Value): (r: Result<Value>)
    ensures r.Raise? <==> !v.Dict?
    ensures v.Dict? && k !in Keys(v.entries) ==> r == Ok(default)
    ensures v.Dict? && k in Keys(v.entries) ==> r == Ok(Lookup(v.entries, k).value)
  {
    if v.Dict? then
      match Lookup(v.entries, k)
      case Some(x) => Ok(x)
      case None => Ok(default)
    else Raise(AttributeError)
  }

  /** v[k] for a string key: lists and strings need an integer index. */
  function Subscript(v: Value, k: string): Result<Value>
  {
    match v
    case Dict(es) => (match Lookup(es, k) case Some(x) => Ok(x) case None => Raise(KeyError))
    case _ => Raise(TypeError)
  }

  /** v[0] */
  function Head(v: Value): Result<Value>
  {
    match v
    case List(xs) => if |xs| > 0 then Ok(xs[0]) else Raise(IndexError)
    case Str(s) => if |s| > 0 then Ok(Str([s[0]])) else Raise(IndexError)
    case Dict(_) => Raise(KeyError)
    case _ => Raise(TypeError)
  }

  /** The items a for-loop over v visits: a dict yields its keys and a
      string its one-character strings. */
  function Iterate(v: Value): Result<seq<Value>>
  {
    match v
    case List(xs) => Ok(xs)
    case Dict(es) => Ok(seq(|es|, i requires 0 <= i < |es| => Str(es[i].0)))
    case Str(s) => Ok(seq(|s|, i requires 0 <= i < |s| => Str([s[i]])))
    case _ => Raise(TypeError)
  }

  /** Python's ==: dicts compare as key sets with equal values whatever the
      insertion order, and True == 1, False == 0. */
  predicate PyEq(a: Value, b: Value)
    decreases a
  {
    match a
    case Null => b.Null?
    case Bool(x) => (b.Bool? && b.b == x) || (b.Int? && b.i == (if x then 1 else 0))
    case Int(x) => (b.Int? && b.i == x) || (b.Bool? && x == (if b.b then 1 else 0))
    case Str(x) => b.Str? && b.s == x
    case List(xs) =>
      b.List? && |xs| == |b.items| &&
      forall i :: 0 <= i < |xs| ==> PyEq(xs[i], b.items[i])
    case Dict(es) =>
      b.Dict? && |es| == |b.entries| &&
      forall i :: 0 <= i < |es| ==>
        var other := Lookup(b.entries, es[i].0);
        other.Some? && PyEq(es[i].1, other.value)
  }

  lemma {:induction false} PyEqReflexive(a: Value)
    requires WellFormed(a)
    ensures PyEq(a, a)
    decreases a
  {
    match a
    case List(xs) =>
      forall i | 0 <= i < |xs| ensures PyEq(xs[i], xs[i]) {
        PyEqReflexive(xs[i]);
      }
    case Dict(es) =>
      forall i | 0 <= i < |es| ensures Lookup(es, es[i].0) == Some(es[i].1) && PyEq(es[i].1, es[i].1) {
        LookupUnique(es, i);
        PyEqReflexive(es[i].1);
      }
    case _ =>
  }

  /** Every dict inside the value has distinct keys, as Python dicts do. */
  ghost predicate WellFormed(v: Value)
    decreases v
  {
    match v
    case List(xs) => forall i :: 0 <= i < |xs| ==> WellFormed(xs[i])
    case Dict(es) => UniqueKeys(es) && forall i :: 0 <= i < |es| ==> WellFormed(es[i].1)
    case _ => true
  }

  lemma LookupUnique<V>(entries: seq<(string, V)>, i: nat)
    requires UniqueKeys(entries) && i < |entries|
    ensures Lookup(entries, entries[i].0) == Some(entries[i].1)
  {
    if i > 0 {
      assert UniqueKeys(entries[1..]);
      LookupUnique(entries[1..], i - 1);
    }
  }

  // ---------------------------------------------------------------------
  // int() and str() on integers
  // ---------------------------------------------------------------------

  /** The characters str.strip() removes by default (ASCII whitespace). */
  predicate IsSpace(c: char)
  {
    c == ' ' || c == '\t' || c == '\n' || c == '\r' || c == '\U{000B}' || c == '\U{000C}'
  }

  function TrimStart(s: string): string
  {
    if |s| > 0 && IsSpace(s[0]) then TrimStart(s[1..]) else s
  }

  function TrimEnd(s: string): string
  {
    if |s| > 0 && IsSpace(s[|s| - 1]) then TrimEnd(s[..|s| - 1]) else s
  }

  predicate IsDigit(c: char)
  {
    '0' <= c <= '9'
  }

  /** A base-10 numeral as int() accepts it: digits, with single
      underscores allowed between two digits. */
  predicate ValidDigits(s: string)
  {
    && |s| > 0
    && IsDigit(s[0])
    && IsDigit(s[|s| - 1])
    && (forall i :: 0 <= i < |s| ==> IsDigit(s[i]) || s[i] == '_')
    && (forall i :: 0 <= i < |s| - 1 ==> s[i] == '_' ==> s[i + 1] != '_')
  }

  function DigitsValue(s: string): int
  {
    if |s| == 0 then 0
    else if s[|s| - 1] == '_' then DigitsValue(s[..|s| - 1])
    else DigitsValue(s[..|s| - 1]) * 10 + (s[|s| - 1] as int - '0' as int)
  }

  /** int(s) for a string s: None where Python raises ValueError. */
  function ParseInt(s: string): Option<int>
  {
    var t := TrimEnd(TrimStart(s));
    if |t| > 0 && (t[0] == '-' || t[0] == '+') then
      if ValidDigits(t[1..]) then
        Some(if t[0] == '-' then -DigitsValue(t[1..]) else DigitsValue(t[1..]))
      else None
    else if ValidDigits(t) then Some(DigitsValue(t))
    else None
  }

  /** int(v) */
  function IntOf(v: Value): Result<int>
  {
    match v
    case Int(i) => Ok(i)
    case Bool(b) => Ok(if b then 1 else 0)
    case Str(s) => (match ParseInt(s) case Some(n) => Ok(n) case None => Raise(ValueError))
    case _ => Raise(TypeError)
  }

  function DigitChar(d: nat): char
    requires d < 10
  {
    ('0' as int + d) as char
  }

  function NatDigits(n: nat): string
    decreases n
  {
    if n < 10 then [DigitChar(n)] else NatDigits(n / 10) + [DigitChar(n % 10)]
  }

  /** str(n) for an integer n. */
  function Decimal(n: int): string
  {
    if n < 0 then "-" + NatDigits(-n) else NatDigits(n)
  }

  lemma {:induction false} NatDigitsParse(n: nat)
    ensures ValidDigits(NatDigits(n)) && DigitsValue(NatDigits(n)) == n
    ensures forall i :: 0 <= i < |NatDigits(n)| ==> IsDigit(NatDigits(n)[i])
    decreases n
  {
    var s := NatDigits(n);
    if n >= 10 {
      NatDigitsParse(n / 10);
      assert s[..|s| - 1] == NatDigits(n / 10);
    }
  }

  /** int(str(n)) == n: the decimal text of an integer parses back to it. */
  lemma {:induction false} DecimalRoundTrip(n: int)
    ensures ParseInt(Decimal(n)) == Some(n)
  {
    var s := Decimal(n);
    var m := if n < 0 then -n else n;
    NatDigitsParse(m);
    var d := NatDigits(m);
    assert !IsSpace(s[0]) && !IsSpace(s[|s| - 1]) by {
      if n < 0 { assert s[0] == '-' && s[|s| - 1] == d[|d| - 1]; } else { assert s == d; }
    }
    assert TrimStart(s) == s;
    assert TrimEnd(s) == s;
    if n < 0 {
      assert s[1..] == d;
    } else {
      assert s == d && s[0] != '-' && s[0] != '+';
    }
  }

  /** str(v) as an f-string renders it. */
  function PyStr(v: Value): string
  {
    match v
    case Str(s) => s
    case _ => Repr(v)
  }

  /** repr(v); strings inside containers are single-quoted without escaping. */
  function Repr(v: Value): string
    decreases v, 1
  {
    match v
    case Null => "None"
    case Bool(b) => if b then "True" else "False"
    case Int(i) => Decimal(i)
    case Str(s) => "'" + s + "'"
    case List(xs) => "[" + ReprItems(v, 0) + "]"
    case Dict(es) => "{" + ReprEntries(v, 0) + "}"
  }

  function ReprItems(v: Value, from: nat): string
    requires v.List?
    decreases v, 0, |v.items| - from
  {
    if from >= |v.items| then ""
    else (if from > 0 then ", " else "") + Repr(v.items[from]) + ReprItems(v, from + 1)
  }

  function ReprEntries(v: Value, from: nat): string
    requires v.Dict?
    decreases v, 0, |v.entries| - from
  {
    if from >= |v.entries| then ""
    else
      (if from > 0 then ", " else "") + "'" + v.entries[from].0 + "': "
      + Repr(v.entries[from].1) + ReprEntries(v, from + 1)
  }
}

=== FILE: send_email.dfy ===
/** The reply composer: picks an incentive line by complaint category, fills
    the acknowledgement template and sends it through the mail service. */
module Reply {
  import opened PyValue

  const Subject: string := "We have received your email"

  const TechSupportIncentive: string :=
    "Please delete the Octank App and re-download from your App Store."
  const ContentIncentive: string :=
    "We're excited about all the new content coming to the service in the next few months visit X to learn more."
  const BillingIncentive: string :=
    "We'd like to offer you $5.00 off/month for the remainder of 2024 to thank you for your loyalty."

  /** Everything after the incentive line. */
  const Closing: string :=
    "\n\nPlease reply back if you have additional concerns or questions. \n\n Sincerely,\nCustomer Success\nAngryCider"

  /** The categories that earn an incentive line. */
  predicate KnownCategory(category: Value)
  {
    category in [Str("techsupport"), Str("content"), Str("billing")]
  }

  /** The if/elif chain on the category; a non-string category equals none
      of the three names. */
  function Incentive(category: Value): string
  {
    if category == Str("techsupport") then TechSupportIncentive
    else if category == Str("content") then ContentIncentive
    else if category == Str("billing") then BillingIncentive
    else ""
  }

  function Greeting(firstName: Value): string
  {
    "Dear " + PyStr(firstName) + ",\n\n"
  }

  function Body(firstName: Value, incentive: string): string
  {
    Greeting(firstName) + incentive + Closing
  }

  /** The body opens with the greeting, closes with the fixed sign-off, and
      what lies between is exactly the incentive line. */
  lemma BodyParts(firstName: Value, incentive: string)
    ensures var body := Body(firstName, incentive);
      && |body| == |Greeting(firstName)| + |incentive| + |Closing|
      && body[..|Greeting(firstName)|] == Greeting(firstName)
      && body[|Greeting(firstName)|..|body| - |Closing|] == incentive
      && body[|body| - |Closing|..] == Closing
  {
    var g := Greeting(firstName);
    var body := Body(firstName, incentive);
    assert body == g + incentive + Closing;
    assert body[..|g|] == g;
    assert body[|g|..|body| - |Closing|] == incentive;
  }

  /** The three incentive lines are distinct and non-empty, and every other
      category gets none. */
  lemma IncentiveChoice(category: Value)
    ensures KnownCategory(category) <==> Incentive(category) != ""
    ensures TechSupportIncentive != ContentIncentive && ContentIncentive != BillingIncentive
         && TechSupportIncentive != BillingIncentive
  {
    assert |TechSupportIncentive| == 65 && |ContentIncentive| == 107 && |BillingIncentive| == 95;
  }

  /** The category's incentive can be read back from the body sent to the
      customer: two bodies for the same addressee agree only when both
      categories are the same known one or neither is known. */
  lemma IncentiveRecoverable(firstName: Value, c1: Value, c2: Value)
    requires Body(firstName, Incentive(c1)) == Body(firstName, Incentive(c2))
    ensures c1 == c2 || (!KnownCategory(c1) && !KnownCategory(c2))
  {
    BodyParts(firstName, Incentive(c1));
    BodyParts(firstName, Incentive(c2));
    IncentiveChoice(c1);
    IncentiveChoice(c2);
  }

  /** The message handed to the mail service. */
  datatype Email = Email(from: Value, to: seq<Value>, subject: string, body: string, charset: string)

  /** What the mail service does with it. */
  datatype SendOutcome = Sent(messageId: Value) | SendClientError | SendOtherError

  /** send_email's result: (MessageId, incentive), None after a
      ClientError, or an exception that escapes. */
  datatype SendResult = Replied(messageId: Value, incentive: string) | NotSent | SendEscaped

  /** send_email(email_from, recipient, first_name, category), with the mail
      service's response given as `outcome`. */
  function SendEmail(emailFrom: Value, recipient: Value, firstName: Value, category: Value,
                     outcome: SendOutcome): (r: (Email, SendResult))
    ensures r.0.subject == Subject && r.0.from == emailFrom && r.0.to == [recipient]
    ensures r.0.charset == "UTF-8"
    ensures r.0.body == Body(firstName, Incentive(category))
    ensures |r.0.body| >= |Greeting(firstName)| + |Closing|
    ensures r.0.body[..|Greeting(firstName)|] == Greeting(firstName)
    ensures r.1.Replied? <==> outcome.Sent?
    ensures r.1.Replied? ==>
      && r.1.messageId == outcome.messageId
      && r.1.incentive == Incentive(category)
      && r.0.body[|Greeting(firstName)|..|r.0.body| - |Closing|] == r.1.incentive
    ensures r.1 == NotSent <==> outcome == SendClientError
  {
    var incentive := Incentive(category);
    var email := Email(emailFrom, [recipient], Subject, Body(firstName, incentive), "UTF-8");
    BodyParts(firstName, incentive);
    match outcome
    case Sent(id) => (email, Replied(id, incentive))
    case SendClientError => (email, NotSent)
    case SendOtherError => (email, SendEscaped)
  }
}

=== FILE: sns_actions.dfy ===
/** The topic router: picks the notification topic for a complaint's
    category from an ordered list of {category, topicArn} entries, falling
    back to the 'unknown' entry, and publishes at most once. */
module Router {
  import opened PyValue

  /** One sns.publish call: topic, subject and the complaint it carries (the
      JSON text of the message is the complaint's encoding). */
  datatype Publication = Publication(topicArn: Value, subject: string, message: Value)

  /** An entry the router can read without raising. */
  predicate IsTopic(t: Value)
  {
    t.Dict? && "category" in Keys(t.entries) && "topicArn" in Keys(t.entries)
  }

  function CategoryOf(t: Value): Value
    requires IsTopic(t)
  {
    Lookup(t.entries, "category").value
  }

  function ArnOf(t: Value): Value
    requires IsTopic(t)
  {
    Lookup(t.entries, "topicArn").value
  }

  /** topic['category'] == wanted, for an entry that has both keys. */
  predicate Matches(t: Value, wanted: Value)
  {
    IsTopic(t) && PyEq(CategoryOf(t), wanted)
  }

  /** j is the first position at or after `from` whose entry matches. */
  predicate FirstMatch(topics: seq<Value>, wanted: Value, from: nat, j: int)
  {
    from <= j < |topics| && Matches(topics[j], wanted)
    && forall k :: from <= k < j ==> !Matches(topics[k], wanted)
  }

  predicate AllTopics(topics: seq<Value>)
  {
    forall j :: 0 <= j < |topics| ==> IsTopic(topics[j])
  }

  /** The value topic_arn holds after one of the two search loops, started
      at position `from`: the arn of the first entry whose category equals
      `wanted`, or None when no entry does. An entry without a 'category'
      key met before the match, or a matching entry without a 'topicArn'
      key, raises. */
  function FindTopic(topics: seq<Value>, wanted: Value, from: nat): (r: Result<Value>)
    requires from <= |topics|
    decreases |topics| - from
  {
    if from == |topics| then Ok(Null)
    else
      match Subscript(topics[from], "category")
      case Raise(e) => Raise(e)
      case Ok(c) =>
        if PyEq(c, wanted) then Subscript(topics[from], "topicArn")
        else FindTopic(topics, wanted, from + 1)
  }

  /** Reading an entry that has both keys never raises. */
  lemma TopicFields(t: Value)
    requires IsTopic(t)
    ensures Subscript(t, "category") == Ok(CategoryOf(t))
    ensures Subscript(t, "topicArn") == Ok(ArnOf(t))
  {
  }

  /** The search raises only on an entry missing a key. */
  lemma {:induction false} FindTopicRaises(topics: seq<Value>, wanted: Value, from: nat)
    requires from <= |topics|
    decreases |topics| - from
    ensures FindTopic(topics, wanted, from).Raise? ==> exists j :: from <= j < |topics| && !IsTopic(topics[j])
  {
    if from < |topics| && IsTopic(topics[from]) {
      TopicFields(topics[from]);
      FindTopicRaises(topics, wanted, from + 1);
    }
  }

  /** The position of the first entry at or after `from` whose category
      equals `wanted`, or |topics| when there is none. */
  function MatchFrom(topics: seq<Value>, wanted: Value, from: nat): (j: nat)
    requires from <= |topics|
    decreases |topics| - from
    ensures from <= j <= |topics|
  {
    if from == |topics| then |topics|
    else if Matches(topics[from], wanted) then from
    else MatchFrom(topics, wanted, from + 1)
  }

  lemma {:induction false} MatchFromIsFirst(topics: seq<Value>, wanted: Value, from: nat)
    requires from <= |topics|
    decreases |topics| - from
    ensures var j := MatchFrom(topics, wanted, from);
      && (j < |topics| ==> FirstMatch(topics, wanted, from, j))
      && (j == |topics| ==> forall k :: from <= k < |topics| ==> !Matches(topics[k], wanted))
  {
    if from < |topics| && !Matches(topics[from], wanted) {
      MatchFromIsFirst(topics, wanted, from + 1);
    }
  }

  /** Over entries that have both keys the search yields the arn at the
      first match, or None when nothing matches. */
  lemma {:induction false} FindTopicOverTopics(topics: seq<Value>, wanted: Value, from: nat)
    requires from <= |topics|
    requires forall j :: from <= j < |topics| ==> IsTopic(topics[j])
    decreases |topics| - from
    ensures var j := MatchFrom(topics, wanted, from);
      FindTopic(topics, wanted, from) == if j == |topics| then Ok(Null) else Ok(ArnOf(topics[j]))
  {
    if from < |topics| {
      TopicFields(topics[from]);
      if !Matches(topics[from], wanted) {
        FindTopicOverTopics(topics, wanted, from + 1);
      }
    }
  }

  /** The search raises only on an entry missing a key; over entries that
      have both keys it yields the arn of the first match, or None when
      nothing matches. */
  lemma FindTopicResult(topics: seq<Value>, wanted: Value, from: nat)
    requires from <= |topics|
    ensures FindTopic(topics, wanted, from).Raise? ==> exists j :: from <= j < |topics| && !IsTopic(topics[j])
    ensures (forall j :: from <= j < |topics| ==> IsTopic(topics[j])) ==>
      var r := FindTopic(topics, wanted, from);
      && r.Ok?
      && ((r.value == Null && forall j :: from <= j < |topics| ==> !Matches(topics[j], wanted))
          || exists j :: FirstMatch(topics, wanted, from, j) && r.value == ArnOf(topics[j]))
  {
    FindTopicRaises(topics, wanted, from);
    if forall j :: from <= j < |topics| ==> IsTopic(topics[j]) {
      FindTopicOverTopics(topics, wanted, from);
      MatchFromIsFirst(topics, wanted, from);
    }
  }

  function Subject(category: Value): string
  {
    "Email Complaint Categorized: " + PyStr(category)
  }

  /** publish_to_sns: the first entry for the category if its arn is truthy,
      else the first 'unknown' entry; a publication only when the arn found
      is truthy. Iterating the topics or reading an entry may raise; the
      publish itself never does, since its failure is caught and dropped. */
  function Route(complaint: Value, category: Value, topics: Value): (r: Result<Option<Publication>>)
    ensures r.Ok? && r.value.Some? ==>
      && Truthy(r.value.value.topicArn)
      && r.value.value.subject == Subject(category)
      && r.value.value.message == complaint
  {
    match Iterate(topics)
    case Raise(e) => Raise(e)
    case Ok(ts) =>
      match FindTopic(ts, category, 0)
      case Raise(e) => Raise(e)
      case Ok(arn) =>
        var chosen := if Truthy(arn) then Ok(arn) else FindTopic(ts, Str("unknown"), 0);
        match chosen
        case Raise(e) => Raise(e)
        case Ok(a) =>
          if Truthy(a) then Ok(Some(Publication(a, Subject(category), complaint))) else Ok(None)
  }

  lemma FirstMatchUnique(topics: seq<Value>, wanted: Value, j: int, j': int)
    requires FirstMatch(topics, wanted, 0, j) && FirstMatch(topics, wanted, 0, j')
    ensures j == j'
  {
  }

  /** Over entries that have both keys, the search yields the arn of the
      first match. */
  lemma FirstArn(topics: seq<Value>, wanted: Value, j: int)
    requires AllTopics(topics) && FirstMatch(topics, wanted, 0, j)
    ensures FindTopic(topics, wanted, 0) == Ok(ArnOf(topics[j]))
  {
    FindTopicOverTopics(topics, wanted, 0);
    MatchFromIsFirst(topics, wanted, 0);
    var m := MatchFrom(topics, wanted, 0);
    assert Matches(topics[j], wanted);
    FirstMatchUnique(topics, wanted, j, m);
  }

  /** The arn the search settles on: that of the first entry for `wanted`,
      or None when there is none. */
  function FoundArn(topics: seq<Value>, wanted: Value): Value
    requires AllTopics(topics)
  {
    var j := MatchFrom(topics, wanted, 0);
    if j < |topics| then ArnOf(topics[j]) else Null
  }

  /** Topic choice over a list of well-formed entries: the first entry for
      the category wins when its arn is truthy; otherwise the first
      'unknown' entry wins when its arn is truthy; otherwise nothing is
      published. Nothing raises. */
  lemma RouteChoice(complaint: Value, category: Value, topics: seq<Value>)
    requires AllTopics(topics)
    ensures var first := FoundArn(topics, category);
      var chosen := if Truthy(first) then first else FoundArn(topics, Str("unknown"));
      Route(complaint, category, List(topics)) ==
        if Truthy(chosen) then Ok(Some(Publication(chosen, Subject(category), complaint))) else Ok(None)
  {
    FindTopicOverTopics(topics, category, 0);
    FindTopicOverTopics(topics, Str("unknown"), 0);
  }

  /** The arn found for `wanted` is that of its first entry. */
  lemma FoundArnAt(topics: seq<Value>, wanted: Value, j: nat)
    requires AllTopics(topics) && FirstMatch(topics, wanted, 0, j)
    ensures FoundArn(topics, wanted) == ArnOf(topics[j])
  {
    MatchFromIsFirst(topics, wanted, 0);
    FirstMatchUnique(topics, wanted, j, MatchFrom(topics, wanted, 0));
  }

  /** Without an entry for `wanted`, the search settles on None. */
  lemma FoundArnAbsent(topics: seq<Value>, wanted: Value)
    requires AllTopics(topics) && forall k :: 0 <= k < |topics| ==> !Matches(topics[k], wanted)
    ensures FoundArn(topics, wanted) == Null
  {
    MatchFromIsFirst(topics, wanted, 0);
  }

  /** A category whose first entry has a truthy arn goes to that entry's
      topic, whatever entries follow. */
  lemma RouteKnownCategory(complaint: Value, category: Value, topics: seq<Value>, j: nat)
    requires AllTopics(topics) && FirstMatch(topics, category, 0, j) && Truthy(ArnOf(topics[j]))
    ensures Route(complaint, category, List(topics)) ==
      Ok(Some(Publication(ArnOf(topics[j]), Subject(category), complaint)))
  {
    FoundArnAt(topics, category, j);
    RouteChoice(complaint, category, topics);
  }

  /** A category without an entry, or whose first entry has a falsy arn,
      goes to the topic of the first 'unknown' entry when that arn is
      truthy. */
  lemma RouteUnknownCategory(complaint: Value, category: Value, topics: seq<Value>, j: nat)
    requires AllTopics(topics)
    requires || (forall k :: 0 <= k < |topics| ==> !Matches(topics[k], category))
             || (exists i :: FirstMatch(topics, category, 0, i) && !Truthy(ArnOf(topics[i])))
    requires FirstMatch(topics, Str("unknown"), 0, j) && Truthy(ArnOf(topics[j]))
    ensures Route(complaint, category, List(topics)) ==
      Ok(Some(Publication(ArnOf(topics[j]), Subject(category), complaint)))
  {
    if forall k :: 0 <= k < |topics| ==> !Matches(topics[k], category) {
      FoundArnAbsent(topics, category);
    } else {
      var i :| FirstMatch(topics, category, 0, i) && !Truthy(ArnOf(topics[i]));
      FoundArnAt(topics, category, i);
    }
    FoundArnAt(topics, Str("unknown"), j);
    RouteChoice(complaint, category, topics);
  }

  /** A category entry as the stack writes it into the settings item,
      {category, topicName, topicArn} with string values, once unwrapped. */
  function StackEntry(category: string, topicName: string, topicArn: string): Value
  {
    Dict([("category", Str(category)), ("topicName", Str(topicName)), ("topicArn", Str(topicArn))])
  }

  /** The entry list the stack writes: one entry per configured category,
      in the configured order. */
  function StackTopics(categories: seq<string>, names: seq<string>, arns: seq<string>): (ts: seq<Value>)
    requires |names| == |categories| && |arns| == |categories|
    ensures |ts| == |categories|
  {
    seq(|categories|, i requires 0 <= i < |categories| => StackEntry(categories[i], names[i], arns[i]))
  }

  /** Every entry the stack writes is one the router reads without raising,
      with the configured category and arn. */
  lemma StackTopicsWellFormed(categories: seq<string>, names: seq<string>, arns: seq<string>)
    requires |names| == |categories| && |arns| == |categories|
    ensures var ts := StackTopics(categories, names, arns);
      && AllTopics(ts)
      && forall i :: 0 <= i < |ts| ==> CategoryOf(ts[i]) == Str(categories[i]) && ArnOf(ts[i]) == Str(arns[i])
  {
    var ts := StackTopics(categories, names, arns);
    forall i | 0 <= i < |ts|
      ensures IsTopic(ts[i]) && CategoryOf(ts[i]) == Str(categories[i]) && ArnOf(ts[i]) == Str(arns[i])
    {
      assert Keys(ts[i].entries) == ["category", "topicName", "topicArn"];
    }
  }

  /** With the entries the stack writes for distinct categories, each
      configured category goes to its own topic. */
  lemma StackRouting(complaint: Value, categories: seq<string>, names: seq<string>, arns: seq<string>, j: nat)
    requires |names| == |categories| && |arns| == |categories| && j < |categories|
    requires forall i, k :: 0 <= i < k < |categories| ==> categories[i] != categories[k]
    requires arns[j] != ""
    ensures Route(complaint, Str(categories[j]), List(StackTopics(categories, names, arns))) ==
      Ok(Some(Publication(Str(arns[j]), Subject(Str(categories[j])), complaint)))
  {
    var ts := StackTopics(categories, names, arns);
    StackTopicsWellFormed(categories, names, arns);
    forall k | 0 <= k < j ensures !Matches(ts[k], Str(categories[j])) {
      assert CategoryOf(ts[k]) == Str(categories[k]);
    }
    assert FirstMatch(ts, Str(categories[j]), 0, j);
    RouteKnownCategory(complaint, Str(categories[j]), ts, j);
  }

  /** With no entry for the category or for 'unknown', nothing is published
      and nothing is raised. */
  lemma NoTopicNoPublish(complaint: Value, category: Value, topics: seq<Value>)
    requires AllTopics(topics)
    requires forall j :: 0 <= j < |topics| ==>
      !PyEq(CategoryOf(topics[j]), category) && !PyEq(CategoryOf(topics[j]), Str("unknown"))
    ensures Route(complaint, category, List(topics)) == Ok(None)
  {
    MatchFromIsFirst(topics, category, 0);
    MatchFromIsFirst(topics, Str("unknown"), 0);
    RouteChoice(complaint, category, topics);
  }

  /** One of the two search loops, stopping at the first entry whose category
      equals `wanted`. */
  method FindTopicArn(topics: seq<Value>, wanted: Value) returns (r: Result<Value>)
    ensures r == FindTopic(topics, wanted, 0)
  {
    var i := 0;
    while i < |topics|
      invariant i <= |topics|
      invariant FindTopic(topics, wanted, 0) == FindTopic(topics, wanted, i)
    {
      var category := Subscript(topics[i], "category");
      if category.Raise? {
        return Raise(category.error);
      }
      if PyEq(category.value, wanted) {
        return Subscript(topics[i], "topicArn");
      }
      i := i + 1;
    }
    return Ok(Null);
  }

  /** publish_to_sns(complaint, category_result, category_topics); the
      result is the publication it sent, if any, or the exception that
      escapes. */
  method PublishToSns(complaint: Value, category: Value, topics: Value)
    returns (r: Result<Option<Publication>>)
    ensures r == Route(complaint, category, topics)
  {
    var items := Iterate(topics);
    if items.Raise? {
      return Raise(items.error);
    }
    var arn := FindTopicArn(items.value, category);
    if arn.Raise? {
      return Raise(arn.error);
    }
    if !Truthy(arn.value) {
      arn := FindTopicArn(items.value, Str("unknown"));
      if arn.Raise? {
        return Raise(arn.error);
      }
    }
    if Truthy(arn.value) {
      r := Ok(Some(Publication(arn.value, Subject(category), complaint)));
    } else {
      r := Ok(None);
    }
  }
}
